=== FILE: README.md ===
# Dotfiles helpers, modelled in Dafny

This project models the data-shaping logic of three scripts from a personal
dotfiles repository and proves properties of it. Page scraping, clipboard,
hashing, floating-point colour maths and process I/O become plain inputs.

- **Advisory filter** (`userscripts/github-ghsa-advisories-enhanced-filter.user.js`),
  a userscript for a repository's security-advisory list. It reads each row
  into a record (`parseRow`): title, link, GHSA identifier, author, date,
  severity, state and a lower-cased search text. Then `apply` filters the
  records by the toolbar's query, state, author and severity checkboxes. It
  sorts them by the chosen key, counts them per severity and writes a
  summary line. `fillAuthors` rebuilds the author select, and the Reset
  button restores the defaults.
- **Review-thread copier** (`userscripts/github-pr-copy-open-review-thread.user.js`),
  a userscript that copies one open pull-request conversation as text. It
  takes the PR title and a thread title (first comment, else the anchor text
  unless it reads as a date). It takes the file name from a priority chain,
  the line number and a code snippet, and the de-duplicated comments.
  `buildPayload` joins them into a fixed line layout.
- **Prompt colour** (`bin/system-colour.py`), which picks a terminal prompt
  colour pair from the host name. It loads a 256-colour palette (or a
  built-in list) and drops the reds reserved for root. It prefers colours
  whose name matches the host name. It picks a foreground by hash, then a
  contrasting background, then flips a coin on the order. It prints
  `export` lines and falls back to white on any error.

Modules follow the scripts: `Text`, `Seqs`, `Sorting`, `LexOrder`, `Decimal`
and `Lines` hold the shared string and list machinery.
`AdvisoryRecord`, `AdvisoryFilter`, `AdvisoryToolbar` and `AdvisoryReset`
model the first script. `ReviewFields`, `DateLike`, `ThreadFile`,
`ThreadTitles`, `ThreadComments`, `ThreadPayload` and `ReviewThread` model
the second. `ColourPalette`, `ColourMatch`, `ColourSelect`, `Hostname` and
`ColourOutput` model the third.

Modelling choices:
- A page element that is missing and one with empty text read the same in
  every source expression (`el?.textContent || ""`), so extracted fields are
  strings, with "" for absent.
- A Python exception is a `Failure` of a `Result`.
- The md5 digest is a parameter `hash: string -> nat`.
- The WCAG contrast test (`rgb_contrast(...) >= 4.5`) is a parameter
  `contrasts: (Rgb, Rgb) -> bool`.
- Operations are stated against independent references and connected to
  them by lemmas. Examples:
  - `norm` is proved to keep exactly the words `split(/\s+/)` finds, joined
    by single spaces.
  - `isDateLike` is a hand-written scanner, proved to accept exactly the
    strings the regular expression's two alternatives describe.
  - The comment loop is proved equal to first-occurrence de-duplication.
  - The payload, the summary line and the ANSI wrapping each have a reader
    that provably recovers what went in.

Facts about the advisory script that the model keeps as written:
- `detectState` recognises only "published", "draft" and "closed"; any other
  label gives "unknown".
- `parseRow` keeps the label's lower-cased text as the severity, so a
  "Medium" label stays "medium". Nothing else about the row feeds the
  severity.
- The script works on the rows of the current page only.

Consequences of the code as written, proved as lemmas:
- A record whose severity has no checkbox ("medium", say) is never shown,
  whatever the controls say (`AdvisoryReset.OtherSeveritiesNeverShown`).
  `severityWeight` nevertheless ranks "medium" as 2.
- An author whose name is literally "all" cannot be singled out: the select
  value "all" means no restriction.
- A host name without ASCII letters matches every colour
  (`ColourMatch.LetterlessSeedMatchesAll`).
- Without the JSON colour map, every non-root prompt is white. The built-in
  colours have no `rgb` key, so the contrast step always raises
  (`ColourOutput.FallbackAlwaysWhite`).

## Model

| member | source | states |
|---|---|---|
| Text.Norm | userscripts/github-ghsa-advisories-enhanced-filter.user.js:21-23 | `norm` leaves no white space at either end, and every white-space character it keeps is a plain space not followed by another |
| Text.NormWords | userscripts/github-ghsa-advisories-enhanced-filter.user.js:21-23 | `norm(s)` is the white-space-free words of `s`, in order, joined by single spaces, and splitting it gives those words back |
| Text.NormFixesNormal | userscripts/github-ghsa-advisories-enhanced-filter.user.js:21-23 | a string already in that shape is left unchanged by `norm` |
| Text.NormIdempotent | userscripts/github-ghsa-advisories-enhanced-filter.user.js:21-23 | `norm(norm(s)) == norm(s)` |
| Text.Words | userscripts/github-ghsa-advisories-enhanced-filter.user.js:255 | `split(/\s+/).filter(Boolean)` yields non-empty pieces free of white space |
| Text.JoinWordsOfNormal | userscripts/github-ghsa-advisories-enhanced-filter.user.js:255 | splitting a normalised query into terms and joining them with one space gives the query back, so no query text is lost |
| Text.ContainsIff | userscripts/github-ghsa-advisories-enhanced-filter.user.js:262 | `includes` holds exactly when the term occurs at some offset |
| Text.ContainsInJoin | userscripts/github-ghsa-advisories-enhanced-filter.user.js:81 | a white-space-free term occurs in the lower-cased, space-joined fields exactly when it occurs in one lower-cased field |
| Text.ToLowerNormal | userscripts/github-ghsa-advisories-enhanced-filter.user.js:63 | lower-casing a normalised string keeps it normalised |
| Text.Take | userscripts/github-pr-copy-open-review-thread.user.js:86 | `slice(0, n)` is a prefix of at most `n` characters, the whole string when it is short enough, and exactly `n` otherwise |
| Seqs.FilterMember | userscripts/github-ghsa-advisories-enhanced-filter.user.js:257-263 | `Array.filter` keeps `x` exactly when `x` is an input satisfying the test |
| Seqs.FilterSubMultiset | userscripts/github-ghsa-advisories-enhanced-filter.user.js:257-263 | the filtered list is a sub-multiset of its input |
| Seqs.Dedup | userscripts/github-ghsa-advisories-enhanced-filter.user.js:229 | `Array.from(new Set(xs))` is repetition-free and has exactly the members of `xs` |
| Sorting.SortPermutes | userscripts/github-ghsa-advisories-enhanced-filter.user.js:265-273 | the insertion sort returns a permutation of its input |
| Sorting.SortSorted | userscripts/github-ghsa-advisories-enhanced-filter.user.js:265-273 | for an antisymmetric, transitive comparator the result is ordered: no later element compares below an earlier one |
| Sorting.SortStable | userscripts/github-ghsa-advisories-enhanced-filter.user.js:265-273 | elements the comparator ties keep their input order, as `Array.prototype.sort` guarantees |
| Sorting.StableSortUnique | userscripts/github-ghsa-advisories-enhanced-filter.user.js:265-273 | two sorted lists that agree on the order of every tie class are equal, so any stable sort gives this one result |
| Sorting.SortTrivialComparator | userscripts/github-ghsa-advisories-enhanced-filter.user.js:272 | a comparator that ties everything leaves the list unchanged |
| LexOrder.StrCompareConsistent | userscripts/github-ghsa-advisories-enhanced-filter.user.js:270-271 | the string comparator standing in for `localeCompare` is antisymmetric and transitive |
| LexOrder.StrCompareZero | userscripts/github-ghsa-advisories-enhanced-filter.user.js:230 | the comparator returns 0 exactly for equal strings |
| LexOrder.StrCompareLess | userscripts/github-ghsa-advisories-enhanced-filter.user.js:270 | the comparator is negative exactly when the first string is lexicographically smaller |
| Decimal.ValueOfNatToString | userscripts/github-ghsa-advisories-enhanced-filter.user.js:295 | the decimal digits a template literal prints for a count denote that count |
| Decimal.ReadNatToString | userscripts/github-ghsa-advisories-enhanced-filter.user.js:295 | reading a printed count followed by a non-digit gives back the count and the rest |
| AdvisoryRecord.SeverityWeight | userscripts/github-ghsa-advisories-enhanced-filter.user.js:33-43 | the rank is 4, 3, 2 and 1 exactly for critical, high, moderate-or-medium and low, and 0 for any other severity string |
| AdvisoryRecord.DetectState | userscripts/github-ghsa-advisories-enhanced-filter.user.js:45-52 | the state is one of four values; "published" wins whenever the label contains it, "draft" only without "published", "closed" only without either, and "unknown" exactly when the label contains none |
| AdvisoryRecord.MatchGhsa | userscripts/github-ghsa-advisories-enhanced-filter.user.js:60-61 | the result is "" exactly when `/GHSA-[\w-]+/i` matches nowhere, and otherwise is the leftmost match, extended as far as `[\w-]` goes |
| AdvisoryRecord.ExtractGhsaOfToken | userscripts/github-ghsa-advisories-enhanced-filter.user.js:59-61 | a muted line holding just an identifier yields that identifier |
| AdvisoryRecord.SeverityOf | userscripts/github-ghsa-advisories-enhanced-filter.user.js:67-68 | the severity is the label's normalised, lower-cased text when that is not blank, and "unknown" when the label is blank or absent; it is never empty |
| AdvisoryRecord.SeverityOfIdempotent | userscripts/github-ghsa-advisories-enhanced-filter.user.js:67-68 | reading back a severity already read gives it unchanged |
| AdvisoryRecord.ParseRow | userscripts/github-ghsa-advisories-enhanced-filter.user.js:54-83 | the title is the normalised link text; the author is the normalised, lower-cased author text; the identifier is the leftmost match in the normalised muted line; severity and state are what `SeverityOf` and `DetectState` read from the label and the state icon; link and date are copied; the search text is the six fields space-joined and lower-cased |
| AdvisoryRecord.SearchBlobFindsFields | userscripts/github-ghsa-advisories-enhanced-filter.user.js:81 | a query term occurs in the search text exactly when it occurs inside one lower-cased field |
| AdvisoryFilter.MatchesParsedRecord | userscripts/github-ghsa-advisories-enhanced-filter.user.js:257-263 | a parsed record passes the filter exactly when state and author agree (or are "all"), its severity is allowed and every term occurs inside one of its fields |
| AdvisoryFilter.FilterAdvisories | userscripts/github-ghsa-advisories-enhanced-filter.user.js:257-263 | every kept record passes the filter, and no more records are kept than given |
| AdvisoryFilter.FilterAdvisoriesKeeps | userscripts/github-ghsa-advisories-enhanced-filter.user.js:257-263 | a record is kept exactly when it is an input that passes, and the kept list is a sub-multiset of the input |
| AdvisoryFilter.MatchesMonotone | userscripts/github-ghsa-advisories-enhanced-filter.user.js:257-263 | a record passing a filter also passes any relaxed one (fewer terms, more severities, "all" for state or author) |
| AdvisoryFilter.FilterMonotone | userscripts/github-ghsa-advisories-enhanced-filter.user.js:257-263 | the stricter filter's result is the relaxed result filtered again, hence a sub-multiset of it in the same order |
| AdvisoryFilter.SortKeyOf | userscripts/github-ghsa-advisories-enhanced-filter.user.js:250-272 | an empty value and "date_desc" sort newest first; each of the other five listed values selects its own key (date ascending, severity descending or ascending, title ascending or descending); exactly the unlisted values leave the order unsorted |
| AdvisoryFilter.ComparatorConsistent | userscripts/github-ghsa-advisories-enhanced-filter.user.js:265-273 | each of the seven comparators `apply` can use is antisymmetric and transitive |
| AdvisoryFilter.SortAdvisories | userscripts/github-ghsa-advisories-enhanced-filter.user.js:265-273 | the sorted list is a permutation of the filtered list, ordered by the comparator, and stable |
| AdvisoryFilter.SortAdvisoriesOrder | userscripts/github-ghsa-advisories-enhanced-filter.user.js:265-273 | under each key, earlier rows have later (or earlier) dates, higher (or lower) severity rank, or titles not lexicographically after (or before) later rows |
| AdvisoryFilter.SortUnsortedKeepsOrder | userscripts/github-ghsa-advisories-enhanced-filter.user.js:272 | an unrecognised sort value leaves the filtered order as it was |
| AdvisoryFilter.Tally | userscripts/github-ghsa-advisories-enhanced-filter.user.js:287-290 | each bucket holds the number of shown records with that severity |
| AdvisoryFilter.TallyTotal | userscripts/github-ghsa-advisories-enhanced-filter.user.js:287-290 | the buckets add up to at most the number shown, and to exactly that number when every shown severity has a bucket |
| AdvisoryFilter.ParseMetaText | userscripts/github-ghsa-advisories-enhanced-filter.user.js:294-300 | the summary line states its seven numbers unambiguously: parsing it gives them back |
| AdvisoryToolbar.AllowedSeverities | userscripts/github-ghsa-advisories-enhanced-filter.user.js:251-253 | each of the five severities is in the allowed set exactly when its box is checked, and nothing else is |
| AdvisoryToolbar.OrAll | userscripts/github-ghsa-advisories-enhanced-filter.user.js:248-249 | an empty value becomes "all" and a non-empty value is kept unchanged |
| AdvisoryToolbar.QueryTerms | userscripts/github-ghsa-advisories-enhanced-filter.user.js:247-255 | the terms are non-empty and free of white space, and joined with spaces they are the normalised lower-cased query |
| AdvisoryToolbar.Pipeline | userscripts/github-ghsa-advisories-enhanced-filter.user.js:255-300 | the shown rows are every copy of every matching input (the same multiset as the filtered list), in comparator order, with tied rows in their input order; each bucket counts the shown records of that severity (`Tally`), and the buckets sum to the shown count, which is at most the total; the summary line parses to shown, total and buckets |
| AdvisoryToolbar.ShownRecords | userscripts/github-ghsa-advisories-enhanced-filter.user.js:257-273 | after filter and sort, each shown record is a matching input with an allowed severity |
| AdvisoryToolbar.Apply | userscripts/github-ghsa-advisories-enhanced-filter.user.js:246-301 | the same guarantees for the controls' values, with the filter and key read from them: every matching copy shown, sorted, ties in input order, each bucket counting the shown records of its severity, summary line as for `Pipeline` |
| AdvisoryToolbar.FillAuthors | userscripts/github-ghsa-advisories-enhanced-filter.user.js:224-244 | options are "all" followed by each non-empty author exactly once in strictly ascending order; the previous choice is kept when it is still an option, otherwise "all" |
| AdvisoryReset.ResetFilterSpec | userscripts/github-ghsa-advisories-enhanced-filter.user.js:316-333 | the reset controls give no query term, no state or author restriction and all five severities |
| AdvisoryReset.ResetApply | userscripts/github-ghsa-advisories-enhanced-filter.user.js:316-333 | after Reset the page shows the unrestricted filter sorted newest first |
| AdvisoryReset.QueryTermsOfBlank | userscripts/github-ghsa-advisories-enhanced-filter.user.js:318 | the cleared search box yields no terms |
| AdvisoryReset.OtherSeveritiesNeverShown | userscripts/github-ghsa-advisories-enhanced-filter.user.js:251-260 | no setting of the controls shows a record whose severity has no checkbox |
| AdvisoryReset.ResetShows | userscripts/github-ghsa-advisories-enhanced-filter.user.js:316-333 | after Reset a record is shown exactly when its severity has a checkbox, newest first |
| AdvisoryReset.ResetShowsEverything | userscripts/github-ghsa-advisories-enhanced-filter.user.js:316-333 | when every severity has a checkbox, Reset shows all records, as the stable newest-first sort of the input |
| DateLike.ScanLongDateIff | userscripts/github-pr-copy-open-review-thread.user.js:20 | the scanner accepts exactly the texts splitting into 3-9 letters, white space, 1-2 digits, a comma, white space and 4 digits |
| DateLike.LongDateScans | userscripts/github-pr-copy-open-review-thread.user.js:20 | every split of that shape is the one the greedy scanner finds |
| DateLike.ScanIsoDateIff | userscripts/github-pr-copy-open-review-thread.user.js:20 | the scanner accepts exactly the texts of the form `dddd-dd-dd` |
| DateLike.IsDateLike | userscripts/github-pr-copy-open-review-thread.user.js:19-21 | `isDateLike` holds exactly when the normalised text has one of the two date shapes, start to end |
| ReviewFields.NormOr | userscripts/github-pr-copy-open-review-thread.user.js:41 | the normalised-or-fallback text is the normalised text when non-empty and the fallback otherwise; it is one line when the fallback is |
| ReviewFields.PrTitle | userscripts/github-pr-copy-open-review-thread.user.js:36-42 | the PR title is the normalised title text when that is not blank and "(unknown PR title)" otherwise; it is a non-empty single line |
| ReviewFields.Snippet | userscripts/github-pr-copy-open-review-thread.user.js:104-112 | the snippet is a single-line prefix of the normalised code text: whole when up to 220 characters, exactly 220 otherwise |
| ReviewFields.LineAndSnippet | userscripts/github-pr-copy-open-review-thread.user.js:98-114 | the line is the normalised `data-line-number` attribute ("" when blank or absent), and the snippet is `Snippet` of the code text |
| ThreadFile.FirstNonEmpty | userscripts/github-pr-copy-open-review-thread.user.js:59-79 | the result is the first non-empty candidate, or the fallback when all are empty |
| ThreadFile.FirstNonEmptyCons | userscripts/github-pr-copy-open-review-thread.user.js:59-79 | a candidate placed in front wins exactly when it is non-empty |
| ThreadFile.FileName | userscripts/github-pr-copy-open-review-thread.user.js:44-80 | the file name is never empty, and is one line when the path-like text is |
| ThreadFile.FileNamePriority | userscripts/github-pr-copy-open-review-thread.user.js:59-79 | the nested early returns pick the first non-empty of data-path, data-tagsearch-path, header title, header text and path-like text, else "(unknown file)" |
| ThreadTitles.Preview | userscripts/github-pr-copy-open-review-thread.user.js:85-86 | the preview is a single-line prefix of the normalised body, of length min(120, its length) |
| ThreadTitles.AnchorTitle | userscripts/github-pr-copy-open-review-thread.user.js:88-95 | the anchor text is used exactly when it is non-empty and not date-like; otherwise the title is "(untitled thread)" |
| ThreadTitles.ThreadTitle | userscripts/github-pr-copy-open-review-thread.user.js:82-96 | the title is a non-empty single line: the preview when the body has text, else the anchor rule |
| ThreadTitles.ThreadTitleNotAnchorDate | userscripts/github-pr-copy-open-review-thread.user.js:92-95 | a thread without comment text is never titled by a date |
| ThreadComments.Candidate | userscripts/github-pr-copy-open-review-thread.user.js:125-135 | a candidate's text is the body's normalised text and its author is the normalised author text, or "unknown" when that is blank (`Author`); the author is never empty, and both are single lines |
| ThreadComments.Author | userscripts/github-pr-copy-open-review-thread.user.js:132-135 | the author is the normalised name when that is not blank and "unknown" otherwise; it is never empty and is one line |
| ThreadComments.FirstTextsDedup | userscripts/github-pr-copy-open-review-thread.user.js:124-137 | the kept texts are the non-empty texts with later repeats dropped (pairwise distinct) |
| ThreadComments.FirstTextsFirst | userscripts/github-pr-copy-open-review-thread.user.js:124-136 | every kept comment has text and is, author included, the first candidate with that text |
| ThreadComments.LastKeptIsFirst | userscripts/github-pr-copy-open-review-thread.user.js:126-127 | when the loop keeps the newest candidate, no earlier candidate had its text |
| ThreadComments.FirstTextsOrdered | userscripts/github-pr-copy-open-review-thread.user.js:124-137 | kept comments come in the order their texts first occur |
| ThreadComments.FirstTextsSkipsEmpty | userscripts/github-pr-copy-open-review-thread.user.js:117-126 | pre-filtering bodies without text changes nothing, since the loop skips them anyway |
| ThreadComments.CandidatesOfKept | userscripts/github-pr-copy-open-review-thread.user.js:117-119 | the pre-filter on bodies commutes with building candidates |
| ThreadComments.CollectComments | userscripts/github-pr-copy-open-review-thread.user.js:116-140 | the loop with its `seen` set produces exactly the "@author: text" entries of the first-occurrence de-duplication, at most one per body |
| ThreadComments.CollectStep | userscripts/github-pr-copy-open-review-thread.user.js:123-136 | one pass of the loop: the body gives the candidate with the normalised text and its author, and the kept list grows by it exactly when its text is not empty and not seen before |
| ThreadComments.CommentsCount | userscripts/github-pr-copy-open-review-thread.user.js:116-140 | there are never more comments than bodies |
| ThreadPayload.Location | userscripts/github-pr-copy-open-review-thread.user.js:168 | the location starts with the file name, equals it exactly when the line is empty, and otherwise continues with ":" and the line |
| ThreadPayload.NumberedFrom | userscripts/github-pr-copy-open-review-thread.user.js:176 | the comment at index `i` becomes line `i + 1`, ". ", comment |
| ThreadPayload.PayloadLines | userscripts/github-pr-copy-open-review-thread.user.js:170-177 | the payload has four fixed lines, plus one for a snippet, plus one per comment (at least one) |
| ThreadPayload.PayloadLayout | userscripts/github-pr-copy-open-review-thread.user.js:170-177 | the lines are "PR: ", "Thread: " and "Location: " with their fields, a "Snippet: " line only when the snippet is not empty, then "Comments:", then comment i as "i+1. c" or the single placeholder line when there are none |
| ThreadPayload.ReadNumberedFrom | userscripts/github-pr-copy-open-review-thread.user.js:176 | numbered lines read back to the comments they number |
| ThreadPayload.ReadCommentLines | userscripts/github-pr-copy-open-review-thread.user.js:176 | the comment section, placeholder included, reads back to the comment list |
| ThreadPayload.PayloadLinesOneLine | userscripts/github-pr-copy-open-review-thread.user.js:170-177 | no payload line holds a break when no field does |
| ThreadPayload.PayloadRoundTrip | userscripts/github-pr-copy-open-review-thread.user.js:170-177 | reading a payload back gives the fields it was built from, snippet present or absent, comments or placeholder |
| ThreadPayload.ReadLinesWithoutSnippet | userscripts/github-pr-copy-open-review-thread.user.js:170-177 | without a snippet, "Comments:" is the fourth line and the lines read back to the fields |
| ThreadPayload.ReadLinesWithSnippet | userscripts/github-pr-copy-open-review-thread.user.js:170-177 | with a snippet, the payload lines read back to the fields: the snippet from the fourth line, the comments after "Comments:" on the fifth |
| Lines.SplitLines | userscripts/github-pr-copy-open-review-thread.user.js:177 | splitting on line breaks gives break-free lines that join back to the text |
| Lines.SplitJoin | userscripts/github-pr-copy-open-review-thread.user.js:177 | joining break-free lines with "\n" and splitting gives the lines back |
| Lines.After | userscripts/github-pr-copy-open-review-thread.user.js:171-173 | the text after a line's label exists exactly when the line starts with the label, and label plus text is the line |
| ReviewThread.EntriesOneLine | userscripts/github-pr-copy-open-review-thread.user.js:136 | every "@author: text" entry is one line |
| ReviewThread.LocationOneLine | userscripts/github-pr-copy-open-review-thread.user.js:168 | the location is one line when file name and line are |
| ReviewThread.PageFieldsOneLine | userscripts/github-pr-copy-open-review-thread.user.js:162-168 | every extracted field is one line, given path-like text without breaks |
| ReviewThread.BuildPayloadReads | userscripts/github-pr-copy-open-review-thread.user.js:162-178 | the copied text carries every extracted field: reading it back gives the PR title, thread title, location, snippet and comment entries |
| ColourPalette.UsablePalette | bin/system-colour.py:58-60 | an entry survives the filter exactly when it is in the list and its id is not one of 160, 196, 9, 88, 124 |
| ColourPalette.UsablePaletteCounts | bin/system-colour.py:58-60 | every copy of a usable entry survives, and no copy of a reserved one |
| ColourPalette.UsablePaletteOrder | bin/system-colour.py:58-60 | the filter works entry by entry, so the survivors keep their original order |
| ColourPalette.FallbackPalette | bin/system-colour.py:40-60 | the built-in list loses nothing to the filter |
| ColourPalette.IndexOfId | bin/system-colour.py:65-68 | the scan stops at the first entry with the id, or runs off the end when none has it |
| ColourPalette.GetColour | bin/system-colour.py:65-70 | the lookup succeeds exactly when some entry has the id, returns the first such entry, and fails with "Invalid colorId" otherwise |
| ColourMatch.LowerLetters | bin/system-colour.py:103-104 | an upper-case ASCII letter contributes its lower-case form, a lower-case letter itself, U+0130 "i" and the Kelvin sign "k"; every other character contributes nothing |
| ColourMatch.Letters | bin/system-colour.py:103-104 | the letters-only form is no longer than the text and holds only lower-case ASCII letters; case folding is stated per character by LowerLetters and over whole texts by LettersOfLower |
| ColourMatch.LettersIdempotent | bin/system-colour.py:103-104 | taking the letters-only form twice changes nothing |
| ColourMatch.LettersConcat | bin/system-colour.py:103-104 | the letters-only form of a concatenation is the concatenation of the forms |
| ColourMatch.MatchUsesLettersOnly | bin/system-colour.py:102-105 | the match of two texts is the match of their letters-only forms, so digits and punctuation never decide it |
| ColourMatch.LettersOfLower | bin/system-colour.py:103-104 | lower-casing the ASCII letters of a text first leaves its letters-only form unchanged, so case never decides a match |
| ColourMatch.NamesMatchSymmetric | bin/system-colour.py:102-105 | the test is symmetric: swapping the seed and the colour name gives the same answer |
| ColourMatch.LetterlessSeedMatchesAll | bin/system-colour.py:102-105 | a seed without letters matches every colour |
| ColourMatch.NameInsideSeedMatches | bin/system-colour.py:102-105 | a seed whose text contains a colour's name matches that colour, whatever surrounds the name |
| ColourSelect.SelectBySeed | bin/system-colour.py:129-137 | selection succeeds exactly when there are candidates, and then returns one of them; an empty list raises a division error |
| ColourSelect.RangeCheck | bin/system-colour.py:73-79 | the range check passes exactly when every component divided by 255 lies in [0, 1] |
| ColourSelect.ContrastTest | bin/system-colour.py:110-124 | one comparison succeeds exactly when both colours carry valid `rgb` values, and then answers the contrast test |
| ColourSelect.ContrastingColours | bin/system-colour.py:107-127 | the backgrounds are computed exactly when the palette is empty or every colour involved has a valid `rgb`, and are then the contrasting colours in palette order |
| ColourSelect.Foreground | bin/system-colour.py:141-149 | a foreground exists exactly when the palette is non-empty, drawn from the matching colours when any match and from the palette otherwise |
| ColourSelect.PairWith | bin/system-colour.py:150-155 | a successful pair holds the foreground and a contrasting palette colour, in one order or the other |
| ColourSelect.GetColours | bin/system-colour.py:139-155 | a result is a prompt pair: a foreground from the pool and a contrasting background, possibly swapped, both from the palette; an empty palette fails |
| ColourSelect.TiebreakerUnused | bin/system-colour.py:143-147 | when at most one colour matches, the tiebreaker does not change the chosen pair |
| ColourSelect.PairWithSucceeds | bin/system-colour.py:150-155 | with valid colours and a contrasting partner present, pairing cannot fail |
| ColourSelect.MatchingColourChosen | bin/system-colour.py:141-155 | when some colour matches the host name, one of the two returned colours matches it |
| ColourSelect.GetColoursSucceeds | bin/system-colour.py:139-155 | a non-empty palette of valid colours, each with a contrasting partner, never makes the choice raise |
| ColourSelect.NoRgbFails | bin/system-colour.py:107-122 | a palette without `rgb` values always makes the choice raise |
| Hostname.BeforeFirst | bin/system-colour.py:172 | `split(sep)[0]` is the longest prefix without `sep` |
| Hostname.ShortHostname | bin/system-colour.py:171-174 | the short name is a prefix of the host name free of ".", "(" and "-", stopping at the end or at one of them |
| Hostname.ShortHostnameLongest | bin/system-colour.py:171-174 | every prefix free of the three characters is a prefix of the short name |
| Hostname.ShortHostnameIdempotent | bin/system-colour.py:171-174 | shortening a short name changes nothing |
| ColourOutput.ReadForegroundPart | bin/system-colour.py:158 | the foreground part of the escape sequence reads back to its id and the message |
| ColourOutput.WrapRoundTrip | bin/system-colour.py:157-158 | reading wrapped text gives back the background id, the foreground id and the message, whatever the message holds |
| ColourOutput.Colourise | bin/system-colour.py:160-162 | `colourise` succeeds exactly when the colour choice for the text (with an empty tiebreaker) does, and its output reads back to the chosen background id, the chosen foreground id and the original string |
| ColourOutput.SystemColour | bin/system-colour.py:164-188 | the background is always 0; root gets 9; anyone else gets the foreground id of the pair chosen for the short host name, or 37 when the choice fails |
| ColourOutput.ReservedOnlyForRoot | bin/system-colour.py:164-188 | the foreground is one of the reserved reds exactly when the user is root |
| ColourOutput.FallbackAlwaysWhite | bin/system-colour.py:185-188 | without the colour map a non-root prompt is always 37 on 0 |

## Left out

- Page access (selectors, class toggling, re-ordering rows, the toolbar markup, observers, timers) is left out. The records and text fields it yields are inputs.
- `parseDateMs` and `Date.parse`: `dateMs` is a given integer, 0 when missing or invalid.
- `localeCompare` is replaced by code-point lexicographic order (`LexOrder.StrCompare`), because locale collation is not specified.
- JavaScript `toLowerCase` is modelled on ASCII letters only. Python's `lower()` in the colour match is exact, including the two non-ASCII characters that lower to ASCII letters.
- JavaScript strings are UTF-16. `slice(0, 120)` and `slice(0, 220)` count code units there and characters here.
- `findPathishText` is a tree walk plus a regular expression; its result is an input. `ReviewThread.BuildPayloadReads` assumes it holds no line break, which that regular expression guarantees.
- `copyText` and the clipboard APIs: foreign calls.
- The button injection, observers and click handlers of the review-thread script: page plumbing.
- `rgb_contrast`, `relative_luminance` and `linearise` use floating point. The threshold test is the `contrasts` parameter. The component range checks are modelled exactly.
- md5 in `select_by_seed`: the `hash` parameter, read as `int(hexdigest, 16)`.
- File and JSON loading, `socket.gethostname`, `geteuid`, `/etc/machine-id` and printing are inputs: the loaded list as an `Option`, host name, root flag and tiebreaker. A JSON map with an entry that lacks `colorId` raises in the reserved-red filter at load time, outside any `try`, and is not modelled.
- Every palette entry here has a `name`. In the source a missing `name` raises `KeyError` in `word_matches_colour`, inside the `try` of the main block, so the prompt falls back to 37 on 0; the model does not cover that case.
- A failed `export` print is not modelled.
- `bin/pickle_view.py` is an I/O wrapper and is not part of this model.
- The source raises `KeyError` and `ValueError`; only the messages stated in the model are kept.
- AdvisoryRecord.SeverityWeight: the table is a plain object, so `map[sev] ?? 0` also finds names inherited from `Object.prototype`: "constructor" or "toString" gives a function and "__proto__" an object, not 0. The model gives 0 for every string outside the table. In `apply` only the five checkbox severities reach the comparator, so the difference never shows there.
- ColourSelect.SelectBySeed: the contract says the choice is a member of the list, not which index `digest % len` picks. That index is the definition itself.
- ColourPalette.UsablePalette: its own contract states membership only. Order and multiplicity are stated by `UsablePaletteOrder` and `UsablePaletteCounts`.

=== FILE: advisory_filter.dfy ===
/** The three stages of the advisories userscript's `apply`: the conjunctive
    filter, the keyed comparator sort, and the per-severity tally with the
    summary line built from it. */
module AdvisoryFilter {
  import opened Wrappers
  import opened Text
  import opened Decimal
  import opened Seqs
  import opened Sorting
  import opened LexOrder
  import opened AdvisoryRecord

  /** What the filter callback in `apply` closes over: the query terms, the
      chosen state and author ("all" for no restriction) and the set of
      checked severities. */
  datatype FilterSpec = FilterSpec(terms: seq<string>, state: string, author: string, allowed: set<string>)

  /** The filter callback, with its early returns. */
  predicate Matches(f: FilterSpec, it: Advisory) {
    if f.state != "all" && it.state != f.state then false
    else if f.author != "all" && it.author != f.author then false
    else if it.severity !in f.allowed then false
    else if |f.terms| == 0 then true
    else forall k :: 0 <= k < |f.terms| ==> Contains(it.searchBlob, f.terms[k])
  }

  function MatchesFn(f: FilterSpec): Advisory -> bool {
    it => Matches(f, it)
  }

  /** For a record `parseRow` built and terms as the query splitter yields
      them, the callback keeps a record exactly when its state and author
      agree with the choice (or the choice is "all"), its severity is
      allowed, and each term occurs inside one of its lower-cased fields. */
  lemma MatchesParsedRecord(f: FilterSpec, it: Advisory)
    requires HasSearchBlob(it)
    requires forall k :: 0 <= k < |f.terms| ==> IsWord(f.terms[k])
    ensures Matches(f, it) <==>
      && (f.state == "all" || it.state == f.state)
      && (f.author == "all" || it.author == f.author)
      && it.severity in f.allowed
      && (forall k :: 0 <= k < |f.terms| ==> SomePieceContains(BlobFields(it), f.terms[k]))
  {
    forall k | 0 <= k < |f.terms|
      ensures Contains(it.searchBlob, f.terms[k]) <==> SomePieceContains(BlobFields(it), f.terms[k])
    {
      SearchBlobFindsFields(it, f.terms[k]);
    }
  }

  /** `items.filter(...)`: the matching records in their original order. */
  function FilterAdvisories(f: FilterSpec, items: seq<Advisory>): (r: seq<Advisory>)
    ensures |r| <= |items|
    ensures forall i :: 0 <= i < |r| ==> Matches(f, r[i])
  {
    Filter(MatchesFn(f), items)
  }

  /** A record is kept exactly when it is one of the inputs and matches; the
      kept list is a sub-multiset of the input. */
  lemma FilterAdvisoriesKeeps(f: FilterSpec, items: seq<Advisory>, x: Advisory)
    ensures x in FilterAdvisories(f, items) <==> x in items && Matches(f, x)
    ensures multiset(FilterAdvisories(f, items)) <= multiset(items)
  {
    FilterMember(MatchesFn(f), items, x);
    FilterSubMultiset(MatchesFn(f), items);
  }

  /** `g` asks for no more than `f`: fewer query terms, more severities, and
      "all" or the same choice for state and author. */
  predicate Relaxes(g: FilterSpec, f: FilterSpec) {
    && (forall k :: 0 <= k < |g.terms| ==> g.terms[k] in f.terms)
    && f.allowed <= g.allowed
    && (g.state == "all" || g.state == f.state)
    && (g.author == "all" || g.author == f.author)
  }

  lemma MatchesMonotone(g: FilterSpec, f: FilterSpec, x: Advisory)
    requires Relaxes(g, f) && Matches(f, x)
    ensures Matches(g, x)
  {
    forall k | 0 <= k < |g.terms| ensures Contains(x.searchBlob, g.terms[k]) {
      assert g.terms[k] in f.terms;
      var j :| 0 <= j < |f.terms| && f.terms[j] == g.terms[k];
    }
  }

  /** Relaxing the filter never hides a record it showed: the stricter result
      is the relaxed result filtered again, so it is a sub-multiset of it and
      keeps its order. */
  lemma FilterMonotone(g: FilterSpec, f: FilterSpec, items: seq<Advisory>)
    requires Relaxes(g, f)
    ensures FilterAdvisories(f, items) == Filter(MatchesFn(f), FilterAdvisories(g, items))
    ensures multiset(FilterAdvisories(f, items)) <= multiset(FilterAdvisories(g, items))
  {
    forall x | MatchesFn(f)(x) ensures MatchesFn(g)(x) {
      MatchesMonotone(g, f, x);
    }
    FilterNarrow(MatchesFn(f), MatchesFn(g), items);
    FilterSubMultiset(MatchesFn(f), FilterAdvisories(g, items));
  }

  /** The sort select's values. A value the comparator does not recognise
      makes it return 0 for every pair. */
  datatype SortKey = DateDesc | DateAsc | SeverityDesc | SeverityAsc | TitleAsc | TitleDesc | Unsorted

  /** The select's value, with `|| "date_desc"` for an empty one. */
  function SortKeyOf(value: string): (k: SortKey)
    ensures value == "" ==> k == DateDesc
    ensures value == "date_desc" ==> k == DateDesc
    ensures value == "date_asc" ==> k == DateAsc
    ensures value == "severity_desc" ==> k == SeverityDesc
    ensures value == "severity_asc" ==> k == SeverityAsc
    ensures value == "title_asc" ==> k == TitleAsc
    ensures value == "title_desc" ==> k == TitleDesc
    ensures k == Unsorted <==> value !in {"", "date_desc", "date_asc", "severity_desc", "severity_asc", "title_asc", "title_desc"}
  {
    if value == "" || value == "date_desc" then DateDesc
    else if value == "date_asc" then DateAsc
    else if value == "severity_desc" then SeverityDesc
    else if value == "severity_asc" then SeverityAsc
    else if value == "title_asc" then TitleAsc
    else if value == "title_desc" then TitleDesc
    else Unsorted
  }

  /** The comparator passed to `filtered.sort`. */
  function Compare(key: SortKey, a: Advisory, b: Advisory): int {
    match key
    case DateAsc => a.dateMs - b.dateMs
    case DateDesc => b.dateMs - a.dateMs
    case SeverityDesc => SeverityWeight(b.severity) - SeverityWeight(a.severity)
    case SeverityAsc => SeverityWeight(a.severity) - SeverityWeight(b.severity)
    case TitleAsc => StrCompare(a.title, b.title)
    case TitleDesc => StrCompare(b.title, a.title)
    case Unsorted => 0
  }

  function Comparator(key: SortKey): (Advisory, Advisory) -> int {
    (a, b) => Compare(key, a, b)
  }

  /** Every comparator `apply` can pick is antisymmetric and transitive, so
      the sort's result is well defined. */
  lemma ComparatorConsistent(key: SortKey)
    ensures Consistent(Comparator(key))
  {
    var cmp := Comparator(key);
    forall a, b ensures Antisymmetric(cmp, a, b) {
      StrCompareAntisymmetric(a.title, b.title);
    }
    forall a, b, c ensures Transitive(cmp, a, b, c) {
      if cmp(a, b) <= 0 && cmp(b, c) <= 0 {
        if key == TitleAsc {
          StrCompareTransitive(a.title, b.title, c.title);
        } else if key == TitleDesc {
          StrCompareTransitive(c.title, b.title, a.title);
        }
      }
    }
  }

  /** `filtered.sort(cmp)`: a stable sort by the chosen key. */
  function SortAdvisories(key: SortKey, items: seq<Advisory>): (r: seq<Advisory>)
    ensures multiset(r) == multiset(items)
    ensures Sorted(Comparator(key), r)
    ensures StableFor(Comparator(key), items, r)
  {
    ComparatorConsistent(key);
    SortPermutes(Comparator(key), items);
    SortSorted(Comparator(key), items);
    SortStable(Comparator(key), items);
    Sort(Comparator(key), items)
  }

  /** What each sort key means for the order of the result. */
  lemma SortAdvisoriesOrder(key: SortKey, items: seq<Advisory>, i: nat, j: nat)
    requires i < j < |items|
    ensures var r := SortAdvisories(key, items);
      && (key == DateDesc ==> r[i].dateMs >= r[j].dateMs)
      && (key == DateAsc ==> r[i].dateMs <= r[j].dateMs)
      && (key == SeverityDesc ==> SeverityWeight(r[i].severity) >= SeverityWeight(r[j].severity))
      && (key == SeverityAsc ==> SeverityWeight(r[i].severity) <= SeverityWeight(r[j].severity))
      && (key == TitleAsc ==> !LexLess(r[j].title, r[i].title))
      && (key == TitleDesc ==> !LexLess(r[i].title, r[j].title))
  {
    var r := SortAdvisories(key, items);
    assert Comparator(key)(r[i], r[j]) <= 0;
    StrCompareLess(r[j].title, r[i].title);
    StrCompareLess(r[i].title, r[j].title);
    StrCompareAntisymmetric(r[i].title, r[j].title);
  }

  /** With an unrecognised key the comparator ties everything, and the
      stable sort leaves the filtered order unchanged. */
  lemma SortUnsortedKeepsOrder(items: seq<Advisory>)
    ensures SortAdvisories(Unsorted, items) == items
  {
    SortTrivialComparator(Comparator(Unsorted), items);
  }

  /** The per-severity tally shown in the summary line. */
  datatype SevCounts = SevCounts(critical: nat, high: nat, moderate: nat, low: nat, unknown: nat)

  function Total(c: SevCounts): nat {
    c.critical + c.high + c.moderate + c.low + c.unknown
  }

  /** How many records have severity `sev`. */
  function CountSeverity(s: seq<Advisory>, sev: string): (n: nat)
    ensures n <= |s|
  {
    if |s| == 0 then 0 else (if s[0].severity == sev then 1 else 0) + CountSeverity(s[1..], sev)
  }

  /** The severities that have a checkbox, and so a bucket in the tally. */
  const Buckets: set<string> := {"critical", "high", "moderate", "low", "unknown"}

  /** Adds one record to the tally. The source also creates a counter for
      any other severity, but such counters are never displayed. */
  function Bump(c: SevCounts, sev: string): SevCounts {
    if sev == "critical" then c.(critical := c.critical + 1)
    else if sev == "high" then c.(high := c.high + 1)
    else if sev == "moderate" then c.(moderate := c.moderate + 1)
    else if sev == "low" then c.(low := c.low + 1)
    else if sev == "unknown" then c.(unknown := c.unknown + 1)
    else c
  }

  /** The counting loop over `filtered`: each bucket holds the number of
      shown records of that severity. */
  function Tally(shown: seq<Advisory>): (c: SevCounts)
    ensures c.critical == CountSeverity(shown, "critical")
    ensures c.high == CountSeverity(shown, "high")
    ensures c.moderate == CountSeverity(shown, "moderate")
    ensures c.low == CountSeverity(shown, "low")
    ensures c.unknown == CountSeverity(shown, "unknown")
  {
    if |shown| == 0 then SevCounts(0, 0, 0, 0, 0) else Bump(Tally(shown[1..]), shown[0].severity)
  }

  /** The buckets never hold more than the records shown, and hold exactly
      that many when every shown severity has a bucket. */
  lemma {:induction false} TallyTotal(shown: seq<Advisory>)
    ensures Total(Tally(shown)) <= |shown|
    ensures (forall i :: 0 <= i < |shown| ==> shown[i].severity in Buckets) ==> Total(Tally(shown)) == |shown|
  {
    if |shown| > 0 {
      var tail := shown[1..];
      TallyTotal(tail);
      BumpTotal(Tally(tail), shown[0].severity);
      if forall i :: 0 <= i < |shown| ==> shown[i].severity in Buckets {
        forall i | 0 <= i < |tail| ensures tail[i].severity in Buckets {
          assert tail[i] == shown[i + 1];
        }
      }
    }
  }

  lemma BumpTotal(c: SevCounts, sev: string)
    ensures Total(Bump(c, sev)) == Total(c) + (if sev in Buckets then 1 else 0)
  {
  }

  /** `tag + n + rest`, with `n` in decimal. */
  function Field(tag: string, n: nat, rest: string): string {
    tag + (NatToString(n) + rest)
  }

  /** The summary line:
      `Showing <shown>/<total> | critical:<c> high:<h> moderate:<m> low:<l> unknown:<u>`. */
  function MetaText(shown: nat, total: nat, c: SevCounts): string {
    Field("Showing ", shown, Field("/", total,
      Field(" | critical:", c.critical, Field(" high:", c.high,
      Field(" moderate:", c.moderate, Field(" low:", c.low,
      Field(" unknown:", c.unknown, "")))))))
  }

  /** Reads `tag` followed by a decimal number. */
  function ReadField(tag: string, s: string): Option<(nat, string)> {
    if IsPrefix(tag, s) then ReadNat(s[|tag|..]) else None
  }

  /** Recovers the numbers from a summary line. */
  function ParseMeta(s: string): Option<(nat, nat, SevCounts)> {
    var shown :- ReadField("Showing ", s);
    var total :- ReadField("/", shown.1);
    var critical :- ReadField(" | critical:", total.1);
    var high :- ReadField(" high:", critical.1);
    var moderate :- ReadField(" moderate:", high.1);
    var low :- ReadField(" low:", moderate.1);
    var unknown :- ReadField(" unknown:", low.1);
    if unknown.1 == "" then
      Some((shown.0, total.0, SevCounts(critical.0, high.0, moderate.0, low.0, unknown.0)))
    else None
  }

  lemma ReadFieldOfField(tag: string, n: nat, rest: string)
    requires rest == "" || !IsDigit(rest[0])
    ensures ReadField(tag, Field(tag, n, rest)) == Some((n, rest))
  {
    var s := Field(tag, n, rest);
    assert s[..|tag|] == tag;
    assert s[|tag|..] == NatToString(n) + rest;
    ReadNatToString(n, rest);
  }

  /** The summary line states its numbers unambiguously: parsing it gives
      them back. */
  lemma ParseMetaText(shown: nat, total: nat, c: SevCounts)
    ensures ParseMeta(MetaText(shown, total, c)) == Some((shown, total, c))
  {
    var t6 := Field(" unknown:", c.unknown, "");
    var t5 := Field(" low:", c.low, t6);
    var t4 := Field(" moderate:", c.moderate, t5);
    var t3 := Field(" high:", c.high, t4);
    var t2 := Field(" | critical:", c.critical, t3);
    var t1 := Field("/", total, t2);
    ReadFieldOfField("Showing ", shown, t1);
    ReadFieldOfField("/", total, t2);
    ReadFieldOfField(" | critical:", c.critical, t3);
    ReadFieldOfField(" high:", c.high, t4);
    ReadFieldOfField(" moderate:", c.moderate, t5);
    ReadFieldOfField(" low:", c.low, t6);
    ReadFieldOfField(" unknown:", c.unknown, "");
  }
}

=== FILE: advisory_record.dfy ===
/** One row of a repository's security-advisory list, as the advisories
    userscript reads it (`parseRow`), with the severity rank table and the
    state classifier it uses. */
module AdvisoryRecord {
  import opened Wrappers
  import opened Text

  /** The record `parseRow` builds. `dateMs` is the `datetime` attribute as
      epoch milliseconds, 0 when missing or unparsable. */
  datatype Advisory = Advisory(
    title: string,
    href: string,
    ghsa: string,
    author: string,
    dateMs: int,
    severity: string,
    state: string,
    searchBlob: string)

  /** The text a row offers before parsing. Every source expression reads a
      missing element and an empty one the same way (`el?.textContent || ""`),
      so an absent piece is the empty string here. */
  datatype RawRow = RawRow(
    linkText: string,
    href: string,
    mutedText: string,
    authorText: string,
    dateMs: int,
    labelText: string,
    stateLabel: string)

  /** The four values `detectState` can return. */
  predicate IsState(s: string) {
    s == "published" || s == "draft" || s == "closed" || s == "unknown"
  }

  /** `severityWeight`: the rank used by the severity sorts. */
  function SeverityWeight(sev: string): (w: nat)
    ensures w <= 4
    ensures w == 4 <==> sev == "critical"
    ensures w == 3 <==> sev == "high"
    ensures w == 2 <==> sev == "moderate" || sev == "medium"
    ensures w == 1 <==> sev == "low"
  {
    if sev == "critical" then 4
    else if sev == "high" then 3
    else if sev == "moderate" || sev == "medium" then 2
    else if sev == "low" then 1
    else 0
  }

  /** `detectState`: the state icon's label, normalised and lower-cased, is
      searched for the keywords in the order published, draft, closed. */
  function DetectState(ariaLabel: string): (r: string)
    ensures IsState(r)
    ensures r != "unknown" ==> Contains(ToLower(Norm(ariaLabel)), r)
    ensures Contains(ToLower(Norm(ariaLabel)), "published") ==> r == "published"
    ensures r == "draft" ==> !Contains(ToLower(Norm(ariaLabel)), "published")
    ensures r == "closed" ==>
      !Contains(ToLower(Norm(ariaLabel)), "published") && !Contains(ToLower(Norm(ariaLabel)), "draft")
    ensures r == "unknown" <==>
      && !Contains(ToLower(Norm(ariaLabel)), "published")
      && !Contains(ToLower(Norm(ariaLabel)), "draft")
      && !Contains(ToLower(Norm(ariaLabel)), "closed")
  {
    var lowered := ToLower(Norm(ariaLabel));
    if Contains(lowered, "published") then "published"
    else if Contains(lowered, "draft") then "draft"
    else if Contains(lowered, "closed") then "closed"
    else "unknown"
  }

  /** `[\w-]` without the `u` flag: ASCII letters, digits, `_` and `-`. */
  predicate IsTokenChar(c: char) {
    ('a' <= c <= 'z') || ('A' <= c <= 'Z') || ('0' <= c <= '9') || c == '_' || c == '-'
  }

  predicate AllTokenChars(s: string) {
    forall k :: 0 <= k < |s| ==> IsTokenChar(s[k])
  }

  /** `GHSA-` in any letter case starts at offset `i` of `s`. */
  predicate GhsaHeadAt(s: string, i: nat)
    requires i + 5 <= |s|
  {
    && LowerChar(s[i]) == 'g' && LowerChar(s[i + 1]) == 'h'
    && LowerChar(s[i + 2]) == 's' && LowerChar(s[i + 3]) == 'a' && s[i + 4] == '-'
  }

  /** `/GHSA-[\w-]+/i` matches at offset `i` of `s`. */
  predicate GhsaStartAt(s: string, i: int) {
    0 <= i && i + 6 <= |s| && GhsaHeadAt(s, i) && IsTokenChar(s[i + 5])
  }

  /** An advisory identifier as the pattern matches it. */
  predicate IsGhsaToken(r: string) {
    |r| >= 6 && GhsaHeadAt(r, 0) && AllTokenChars(r[5..])
  }

  /** `i` is where the regular expression's leftmost match starts. */
  ghost predicate LeftmostGhsa(s: string, i: int) {
    GhsaStartAt(s, i) && forall k :: 0 <= k < i ==> !GhsaStartAt(s, k)
  }

  /** `r` occurs at `i` and cannot be extended by the greedy `+`. */
  predicate GreedyTokenAt(s: string, r: string, i: int) {
    OccursAt(s, r, i) && (i + |r| == |s| || !IsTokenChar(s[i + |r|]))
  }

  /** Length of the leading run of `[\w-]` characters. */
  function SpanToken(s: string): (n: nat)
    ensures n <= |s| && AllTokenChars(s[..n])
    ensures n < |s| ==> !IsTokenChar(s[n])
  {
    if |s| == 0 || !IsTokenChar(s[0]) then 0
    else
      var k := SpanToken(s[1..]);
      assert s[..k + 1] == [s[0]] + s[1..][..k];
      k + 1
  }

  /** The first offset at or after `i` where the pattern matches. */
  function FindGhsa(s: string, i: nat): (r: Option<nat>)
    requires i <= |s|
    ensures r.Some? ==> i <= r.value && GhsaStartAt(s, r.value)
    ensures forall k :: i <= k < (if r.Some? then r.value else |s|) ==> !GhsaStartAt(s, k)
    decreases |s| - i
  {
    if i + 6 > |s| then None
    else if GhsaStartAt(s, i) then Some(i)
    else FindGhsa(s, i + 1)
  }

  /** `s.match(/GHSA-[\w-]+/i)`: the leftmost match, as long as it goes, or
      "" when there is none. */
  function MatchGhsa(s: string): (r: string)
    ensures r == "" <==> forall k :: !GhsaStartAt(s, k)
    ensures r != "" ==> IsGhsaToken(r)
    ensures r != "" ==> exists i :: LeftmostGhsa(s, i) && GreedyTokenAt(s, r, i)
  {
    match FindGhsa(s, 0)
    case None => ""
    case Some(i) =>
      var n := SpanToken(s[i + 5..]);
      var r := s[i..i + 5 + n];
      assert r[5..] == s[i + 5..][..n];
      assert GreedyTokenAt(s, r, i);
      assert LeftmostGhsa(s, i);
      r
  }

  /** The identifier shown in a row's muted line. */
  function ExtractGhsa(muted: string): (r: string)
    ensures r == "" || IsGhsaToken(r)
  {
    MatchGhsa(Norm(muted))
  }

  lemma {:induction false} SpanTokenAll(s: string)
    requires AllTokenChars(s)
    ensures SpanToken(s) == |s|
    decreases |s|
  {
    if |s| > 0 {
      SpanTokenAll(s[1..]);
    }
  }

  /** An identifier on its own is matched whole. */
  lemma MatchGhsaOfToken(id: string)
    requires IsGhsaToken(id)
    ensures MatchGhsa(id) == id
  {
    assert id[5] == id[5..][0];
    assert GhsaStartAt(id, 0);
    SpanTokenAll(id[5..]);
    assert id[0..5 + |id[5..]|] == id;
  }

  /** A muted line holding nothing but an identifier yields that identifier. */
  lemma ExtractGhsaOfToken(id: string)
    requires IsGhsaToken(id)
    ensures ExtractGhsa(id) == id
  {
    forall k | 0 <= k < |id| ensures !IsSpace(id[k]) {
      if k >= 5 {
        assert id[k] == id[5..][k - 5];
      }
    }
    NormFixesNormal(id);
    MatchGhsaOfToken(id);
  }

  /** The severity label. The source reads `norm(text || "Unknown")`,
      lower-cases it and falls back to "unknown" when that is empty; a missing
      label therefore also reads as "unknown", which is what this states. */
  function SeverityOf(labelText: string): (r: string)
    ensures |r| > 0 && IsNormal(r) && ToLower(r) == r
    ensures Norm(labelText) == "" ==> r == "unknown"
    ensures Norm(labelText) != "" ==> r == ToLower(Norm(labelText))
  {
    var n := Norm(labelText);
    if |n| == 0 then
      UnknownIsNormal();
      "unknown"
    else
      ToLowerNormal(n);
      ToLowerIdempotent(n);
      ToLower(n)
  }

  lemma UnknownIsNormal()
    ensures IsNormal("unknown") && ToLower("unknown") == "unknown"
  {
    var u := "unknown";
    forall k | 0 <= k < |u| ensures 'a' <= u[k] <= 'z' {
    }
  }

  /** Reading back a severity that was already read gives it unchanged. */
  lemma SeverityOfIdempotent(labelText: string)
    ensures SeverityOf(SeverityOf(labelText)) == SeverityOf(labelText)
  {
    var r := SeverityOf(labelText);
    NormFixesNormal(r);
  }

  /** The fields `searchBlob` joins, in order. */
  function BlobFields(a: Advisory): seq<string> {
    [a.title, a.ghsa, a.author, a.severity, a.state, a.href]
  }

  /** The record's search text is its fields, space-joined and lower-cased. */
  predicate HasSearchBlob(a: Advisory) {
    a.searchBlob == ToLower(Join(BlobFields(a), " "))
  }

  /** `parseRow`. */
  function ParseRow(raw: RawRow): (a: Advisory)
    ensures HasSearchBlob(a)
    ensures IsState(a.state)
    ensures |a.severity| > 0
    ensures IsNormal(a.title) && IsNormal(a.author) && ToLower(a.author) == a.author
    ensures a.ghsa == "" || IsGhsaToken(a.ghsa)
    ensures a.href == raw.href && a.dateMs == raw.dateMs
    ensures a.title == Norm(raw.linkText) && a.author == ToLower(Norm(raw.authorText))
    ensures a.ghsa == ExtractGhsa(raw.mutedText)
    ensures a.severity == SeverityOf(raw.labelText)
    ensures a.state == DetectState(raw.stateLabel)
  {
    var author := ToLower(Norm(raw.authorText));
    ToLowerNormal(Norm(raw.authorText));
    ToLowerIdempotent(Norm(raw.authorText));
    var a := Advisory(
      Norm(raw.linkText),
      raw.href,
      ExtractGhsa(raw.mutedText),
      author,
      raw.dateMs,
      SeverityOf(raw.labelText),
      DetectState(raw.stateLabel),
      "");
    a.(searchBlob := ToLower(Join(BlobFields(a), " ")))
  }

  /** A query term (never empty, never containing white space) occurs in the
      search text exactly when it occurs in one of the lower-cased fields. */
  lemma SearchBlobFindsFields(a: Advisory, t: string)
    requires HasSearchBlob(a)
    requires |t| > 0 && NoSpace(t)
    ensures Contains(a.searchBlob, t) <==> SomePieceContains(BlobFields(a), t)
  {
    ContainsInJoin(BlobFields(a), t);
  }
}

=== FILE: advisory_reset.dfy ===
/** The toolbar's Reset button: the control values it restores and what the
    list shows afterwards. */
module AdvisoryReset {
  import opened Text
  import Seqs
  import Sorting
  import opened AdvisoryRecord
  import opened AdvisoryFilter
  import opened AdvisoryToolbar

  /** The controls after the Reset button: empty query, every state and
      author, newest first, all five severities checked. */
  function ResetControls(): Controls {
    Controls("", "all", "all", "date_desc", SevChecks(true, true, true, true, true))
  }

  lemma QueryTermsOfBlank(query: string)
    requires |query| == 0
    ensures QueryTerms(query) == []
  {
    assert |Norm(query)| == 0;
  }

  /** The filter Reset leaves: no query term, no state or author
      restriction, every bucketed severity allowed. */
  const ResetFilter := FilterSpec([], "all", "all", Buckets)

  lemma ResetFilterSpec()
    ensures SpecOf(ResetControls()) == ResetFilter
  {
    QueryTermsOfBlank(ResetControls().query);
  }

  lemma ResetSortKey()
    ensures SortKeyOf(ResetControls().sort) == DateDesc
  {
  }

  /** After Reset the page shows what the pipeline makes of the unrestricted
      filter and the newest-first order. */
  lemma ResetApply(items: seq<Advisory>)
    ensures Apply(ResetControls(), items) == Pipeline(ResetFilter, DateDesc, items)
  {
    ResetFilterSpec();
    ResetSortKey();
  }

  /** No choice of controls shows a record whose severity has no checkbox
      ("medium", say): such a record stays hidden even after Reset. */
  lemma OtherSeveritiesNeverShown(c: Controls, items: seq<Advisory>, x: Advisory)
    requires x.severity !in Buckets
    ensures x !in Apply(c, items).shown
  {
  }

  /** The Reset filter keeps a record exactly when its severity has a
      checkbox. */
  lemma MatchesResetFilter(x: Advisory)
    ensures Matches(ResetFilter, x) <==> x.severity in Buckets
  {
  }

  /** After Reset (see `ResetApply`) a record is shown exactly when its
      severity has a checkbox; the shown rows are newest first. */
  lemma ResetShows(items: seq<Advisory>, x: Advisory)
    ensures x in Pipeline(ResetFilter, DateDesc, items).shown <==> x in items && x.severity in Buckets
    ensures Sorting.Sorted(Comparator(DateDesc), Pipeline(ResetFilter, DateDesc, items).shown)
  {
    var out := Pipeline(ResetFilter, DateDesc, items);
    assert x in out.shown <==> x in items && Matches(ResetFilter, x);
    MatchesResetFilter(x);
  }

  /** After Reset (see `ResetApply`), when every severity has a checkbox,
      every record is shown: the rows are the stable newest-first sort of all
      of them. */
  lemma ResetShowsEverything(items: seq<Advisory>)
    requires forall i :: 0 <= i < |items| ==> items[i].severity in Buckets
    ensures Pipeline(ResetFilter, DateDesc, items).shown == SortAdvisories(DateDesc, items)
    ensures multiset(Pipeline(ResetFilter, DateDesc, items).shown) == multiset(items)
  {
    forall i | 0 <= i < |items| ensures MatchesFn(ResetFilter)(items[i]) {
      MatchesResetFilter(items[i]);
    }
    Seqs.FilterAll(MatchesFn(ResetFilter), items);
    assert FilterAdvisories(ResetFilter, items) == items;
  }
}

=== FILE: advisory_toolbar.dfy ===
/** The advisories userscript's toolbar: the values its controls hold, the
    `apply` pipeline that turns them into the shown list and summary line,
    the Reset defaults, and the author select that `fillAuthors` rebuilds. */
module AdvisoryToolbar {
  import opened Wrappers
  import opened Text
  import opened Seqs
  import opened Sorting
  import opened LexOrder
  import opened AdvisoryRecord
  import opened AdvisoryFilter

  /** The five severity checkboxes. */
  datatype SevChecks = SevChecks(critical: bool, high: bool, moderate: bool, low: bool, unknown: bool)

  /** The values of the toolbar's controls as `apply` reads them. */
  datatype Controls = Controls(query: string, state: string, author: string, sort: string, checks: SevChecks)

  /** The values of the checked severity boxes. */
  function AllowedSeverities(c: SevChecks): (s: set<string>)
    ensures s <= Buckets
    ensures c.critical && c.high && c.moderate && c.low && c.unknown ==> s == Buckets
    ensures "critical" in s <==> c.critical
    ensures "high" in s <==> c.high
    ensures "moderate" in s <==> c.moderate
    ensures "low" in s <==> c.low
    ensures "unknown" in s <==> c.unknown
  {
    (if c.critical then {"critical"} else {})
      + (if c.high then {"high"} else {})
      + (if c.moderate then {"moderate"} else {})
      + (if c.low then {"low"} else {})
      + (if c.unknown then {"unknown"} else {})
  }

  /** `value || "all"`. */
  function OrAll(value: string): (r: string)
    ensures |r| > 0
    ensures |value| > 0 ==> r == value
    ensures value == "" ==> r == "all"
  {
    if value == "" then "all" else value
  }

  /** The search box's terms: the normalised, lower-cased query split on
      white space, no term for an empty query. */
  function QueryTerms(query: string): (ts: seq<string>)
    ensures forall k :: 0 <= k < |ts| ==> IsWord(ts[k])
    ensures Join(ts, " ") == ToLower(Norm(query))
  {
    var q := ToLower(Norm(query));
    ToLowerNormal(Norm(query));
    JoinWordsOfNormal(q);
    if |q| == 0 then [] else Words(q)
  }

  function SpecOf(c: Controls): FilterSpec {
    FilterSpec(QueryTerms(c.query), OrAll(c.state), OrAll(c.author), AllowedSeverities(c.checks))
  }

  /** What `apply` leaves on the page: the shown rows in display order, the
      tally and the summary text. */
  datatype Rendered = Rendered(shown: seq<Advisory>, counts: SevCounts, meta: string)

  /** Filter, sort, tally and summary for a given filter and sort key. */
  function Pipeline(spec: FilterSpec, key: SortKey, items: seq<Advisory>): (out: Rendered)
    requires spec.allowed <= Buckets
    ensures forall x :: x in out.shown <==> x in items && Matches(spec, x)
    ensures multiset(out.shown) <= multiset(items)
    ensures multiset(out.shown) == multiset(FilterAdvisories(spec, items))
    ensures Sorted(Comparator(key), out.shown)
    ensures StableFor(Comparator(key), FilterAdvisories(spec, items), out.shown)
    ensures out.counts == Tally(out.shown)
    ensures Total(out.counts) == |out.shown| <= |items|
    ensures ParseMeta(out.meta) == Some((|out.shown|, |items|, out.counts))
  {
    var shown := SortAdvisories(key, FilterAdvisories(spec, items));
    ShownRecords(spec, key, items);
    TallyTotal(shown);
    var counts := Tally(shown);
    ParseMetaText(|shown|, |items|, counts);
    Rendered(shown, counts, MetaText(|shown|, |items|, counts))
  }

  /** The records the pipeline shows are the matching inputs, each severity
      among the allowed ones. */
  lemma ShownRecords(spec: FilterSpec, key: SortKey, items: seq<Advisory>)
    ensures var shown := SortAdvisories(key, FilterAdvisories(spec, items));
      && (forall x :: x in shown <==> x in items && Matches(spec, x))
      && multiset(shown) <= multiset(items)
      && (forall i :: 0 <= i < |shown| ==> shown[i].severity in spec.allowed)
  {
    var filtered := FilterAdvisories(spec, items);
    var shown := SortAdvisories(key, filtered);
    forall x ensures x in shown <==> x in items && Matches(spec, x) {
      assert x in shown <==> x in multiset(shown);
      FilterAdvisoriesKeeps(spec, items, x);
    }
    if |items| > 0 {
      FilterAdvisoriesKeeps(spec, items, items[0]);
    } else {
      assert filtered == [];
    }
    forall i | 0 <= i < |shown| ensures shown[i].severity in spec.allowed {
      assert shown[i] in multiset(shown);
      assert Matches(spec, shown[i]);
    }
  }

  /** `apply(toolbar, items)`: the kept records are the inputs that match the
      controls, shown in the chosen order; the buckets add up to the number
      shown; the summary line carries the shown count, the total and the
      buckets. */
  function Apply(c: Controls, items: seq<Advisory>): (out: Rendered)
    ensures forall x :: x in out.shown <==> x in items && Matches(SpecOf(c), x)
    ensures multiset(out.shown) <= multiset(items)
    ensures multiset(out.shown) == multiset(FilterAdvisories(SpecOf(c), items))
    ensures Sorted(Comparator(SortKeyOf(c.sort)), out.shown)
    ensures StableFor(Comparator(SortKeyOf(c.sort)), FilterAdvisories(SpecOf(c), items), out.shown)
    ensures out.counts == Tally(out.shown)
    ensures Total(out.counts) == |out.shown| <= |items|
    ensures ParseMeta(out.meta) == Some((|out.shown|, |items|, out.counts))
  {
    Pipeline(SpecOf(c), SortKeyOf(c.sort), items)
  }

  /** The author select after `fillAuthors`: its option values, "all" first,
      and the value it ends up holding. */
  datatype AuthorSelect = AuthorSelect(options: seq<string>, selected: string)

  function Authors(items: seq<Advisory>): (r: seq<string>)
    ensures |r| == |items|
    ensures forall i :: 0 <= i < |items| ==> r[i] == items[i].author
  {
    seq(|items|, i requires 0 <= i < |items| => items[i].author)
  }

  /** Some record has author `a`. */
  ghost predicate IsAuthorOf(items: seq<Advisory>, a: string) {
    exists i :: 0 <= i < |items| && items[i].author == a
  }

  /** `fillAuthors(toolbar, items)`: "all", then each non-empty author once,
      in ascending order; the previous value (`|| "all"`) is kept when it is
      still an option, and the select falls back to its first option, "all",
      otherwise. */
  function FillAuthors(items: seq<Advisory>, current: string): (sel: AuthorSelect)
    ensures |sel.options| > 0 && sel.options[0] == "all"
    ensures forall a :: a in sel.options[1..] <==> a != "" && IsAuthorOf(items, a)
    ensures Distinct(sel.options[1..])
    ensures forall i, j :: 1 <= i < j < |sel.options| ==> LexLess(sel.options[i], sel.options[j])
    ensures sel.selected in sel.options
    ensures sel.selected == (if OrAll(current) in sel.options then OrAll(current) else "all")
  {
    var named := Filter(IsNonEmpty, Authors(items));
    var names := Dedup(named);
    var sorted := Sort(StrCompare, names);
    StrCompareConsistent();
    SortPermutes(StrCompare, names);
    SortSorted(StrCompare, names);
    DistinctPermutation(names, sorted);
    forall a ensures a in sorted <==> a != "" && IsAuthorOf(items, a) {
      assert a in sorted <==> a in multiset(sorted);
      FilterMember(IsNonEmpty, Authors(items), a);
      if IsAuthorOf(items, a) {
        var i :| 0 <= i < |items| && items[i].author == a;
        assert Authors(items)[i] == a;
      }
    }
    forall i, j | 0 <= i < j < |sorted| ensures LexLess(sorted[i], sorted[j]) {
      StrCompareZero(sorted[i], sorted[j]);
      StrCompareLess(sorted[i], sorted[j]);
    }
    var options := ["all"] + sorted;
    assert options[1..] == sorted;
    var want := OrAll(current);
    AuthorSelect(options, if want in options then want else "all")
  }
}

=== FILE: colour_match.dfy ===
/** `word_matches_colour`: a hostname "is" a colour when, after Python's
    `lower()` and keeping only ASCII letters, either text contains the
    other. */
module ColourMatch {
  import opened Text
  import opened ColourPalette

  predicate IsLowerLetter(c: char) {
    'a' <= c <= 'z'
  }

  /** The ASCII letters `c.lower()` contributes. Python's full lower-casing
      maps two non-ASCII characters onto ASCII letters: U+0130 (capital I
      with dot above) becomes "i" followed by a combining dot, and U+212A
      (the Kelvin sign) becomes "k". Every other character that is not an
      ASCII letter lower-cases to non-ASCII text. */
  function LowerLetters(c: char): (r: string)
    ensures |r| <= 1
    ensures forall k :: 0 <= k < |r| ==> IsLowerLetter(r[k])
    ensures IsLowerLetter(c) ==> r == [c]
    ensures 'A' <= c <= 'Z' ==> r == [LowerChar(c)] && IsLowerLetter(LowerChar(c))
    ensures c == '\U{0130}' ==> r == "i"
    ensures c == '\U{212A}' ==> r == "k"
    ensures r == "" <==> !('A' <= c <= 'Z') && !IsLowerLetter(c) && c != '\U{0130}' && c != '\U{212A}'
  {
    if 'A' <= c <= 'Z' then [(c as int - 'A' as int + 'a' as int) as char]
    else if 'a' <= c <= 'z' then [c]
    else if c == '\U{0130}' then "i"
    else if c == '\U{212A}' then "k"
    else ""
  }

  /** `"".join(x for x in s.lower() if x in ascii_letters)`. */
  function Letters(s: string): (r: string)
    ensures |r| <= |s|
    ensures forall k :: 0 <= k < |r| ==> IsLowerLetter(r[k])
    decreases |s|
  {
    if |s| == 0 then "" else LowerLetters(s[0]) + Letters(s[1..])
  }

  /** Text made of lower-case ASCII letters is its own letters-only form. */
  lemma {:induction false} LettersOfLetters(s: string)
    requires forall k :: 0 <= k < |s| ==> IsLowerLetter(s[k])
    ensures Letters(s) == s
    decreases |s|
  {
    if |s| > 0 {
      LettersOfLetters(s[1..]);
      assert s == [s[0]] + s[1..];
    }
  }

  /** Taking the letters-only form twice changes nothing. */
  lemma LettersIdempotent(s: string)
    ensures Letters(Letters(s)) == Letters(s)
  {
    LettersOfLetters(Letters(s));
  }

  /** The letters-only form of a concatenation. */
  lemma {:induction false} LettersConcat(a: string, b: string)
    ensures Letters(a + b) == Letters(a) + Letters(b)
    decreases |a|
  {
    if |a| > 0 {
      assert (a + b)[1..] == a[1..] + b;
      LettersConcat(a[1..], b);
    } else {
      assert a + b == b;
    }
  }

  /** Lower-casing the ASCII letters first changes no letters-only form:
      upper and lower case contribute the same letter. */
  lemma {:induction false} LettersOfLower(s: string)
    ensures Letters(ToLower(s)) == Letters(s)
    decreases |s|
  {
    if |s| > 0 {
      assert ToLower(s)[1..] == ToLower(s[1..]);
      LettersOfLower(s[1..]);
    }
  }

  /** Either letters-only form contains the other. */
  predicate NamesMatch(seed: string, name: string) {
    var s := Letters(seed);
    var n := Letters(name);
    Contains(n, s) || Contains(s, n)
  }

  /** Which text is the seed and which the name does not matter. */
  lemma NamesMatchSymmetric(a: string, b: string)
    ensures NamesMatch(a, b) == NamesMatch(b, a)
  {
  }

  /** `word_matches_colour(seed, colour)`. */
  predicate WordMatchesColour(seed: string, c: Colour) {
    NamesMatch(seed, c.name)
  }

  /** Only the letters-only forms decide a match: digits and punctuation
      are dropped and case is folded before the comparison
      (`LettersOfLower`). */
  lemma MatchUsesLettersOnly(seed: string, name: string)
    ensures NamesMatch(seed, name) == NamesMatch(Letters(seed), Letters(name))
  {
    LettersIdempotent(seed);
    LettersIdempotent(name);
  }

  /** A seed without letters (a purely numeric host name, say) matches every
      colour. */
  lemma LetterlessSeedMatchesAll(seed: string, c: Colour)
    requires Letters(seed) == ""
    ensures WordMatchesColour(seed, c)
  {
    ContainsEmpty(Letters(c.name));
  }

  /** A seed whose letters spell a colour's name matches it, whatever else
      surrounds the letters. */
  lemma NameInsideSeedMatches(p: string, name: string, q: string, c: Colour)
    requires c.name == name
    ensures WordMatchesColour(p + name + q, c)
  {
    LettersConcat(p + name, q);
    LettersConcat(p, name);
    ContainsSelf(Letters(name));
    ContainsInside(Letters(name), Letters(name), Letters(p), Letters(q));
  }
}

=== FILE: colour_output.dfy ===
/** What `bin/system-colour.py` produces: the ANSI-coloured text of `wrap`
    and `colourise`, and the two `export` values its main block prints. */
module ColourOutput {
  import opened Wrappers
  import opened Text
  import opened Decimal
  import opened Lines
  import opened ColourPalette
  import opened ColourSelect
  import opened Hostname

  /** The escape character, `\033`. */
  const Esc: char := '\U{1B}'

  /** Opens a 256-colour background: ESC "[48;5;". */
  const BgOpen: string := [Esc] + "[48;5;"

  /** Opens a 256-colour foreground, after the background's "m". */
  const FgOpen: string := "m" + [Esc] + "[38;5;"

  /** Resets all attributes: ESC "[0m". */
  const Reset: string := [Esc] + "[0m"

  /** `wrap(msg, fg, bg)`: background code, foreground code, the message and
      the reset code, with nothing in between. */
  function Wrap(msg: string, fg: Colour, bg: Colour): string {
    BgOpen + NatToString(bg.colorId) + FgOpen + NatToString(fg.colorId) + "m" + msg + Reset
  }

  /** `s` ends with `suffix`. */
  predicate EndsWith(s: string, suffix: string) {
    |suffix| <= |s| && s[|s| - |suffix|..] == suffix
  }

  /** Reads wrapped text back: the background id, the foreground id and the
      message; `None` when the text is not laid out as `wrap` lays it out. */
  function ReadWrapped(s: string): Option<(nat, nat, string)> {
    var a :- After(BgOpen, s);
    var bgRest :- ReadNat(a);
    var fgMsg :- ReadForeground(bgRest.1);
    Some((bgRest.0, fgMsg.0, fgMsg.1))
  }

  /** Reads the part after the background id: the foreground code, the
      message and the reset code. */
  function ReadForeground(s: string): Option<(nat, string)> {
    var b :- After(FgOpen, s);
    var fgRest :- ReadNat(b);
    var c :- After("m", fgRest.1);
    if EndsWith(c, Reset) then Some((fgRest.0, c[..|c| - |Reset|])) else None
  }

  lemma ReadForegroundPart(fg: nat, msg: string)
    ensures ReadForeground(FgOpen + (NatToString(fg) + ("m" + (msg + Reset)))) == Some((fg, msg))
  {
    var tail := "m" + (msg + Reset);
    AfterPrefix(FgOpen, NatToString(fg) + tail);
    ReadNatToString(fg, tail);
    AfterPrefix("m", msg + Reset);
    assert EndsWith(msg + Reset, Reset);
    assert (msg + Reset)[..|msg|] == msg;
  }

  /** Reading wrapped text gives back both colour ids and the message,
      whatever the message holds. */
  lemma WrapRoundTrip(msg: string, fg: Colour, bg: Colour)
    ensures ReadWrapped(Wrap(msg, fg, bg)) == Some((bg.colorId, fg.colorId, msg))
  {
    var tail := FgOpen + (NatToString(fg.colorId) + ("m" + (msg + Reset)));
    assert Wrap(msg, fg, bg) == BgOpen + (NatToString(bg.colorId) + tail);
    AfterPrefix(BgOpen, NatToString(bg.colorId) + tail);
    ReadNatToString(bg.colorId, tail);
    ReadForegroundPart(fg.colorId, msg);
  }

  /** `colourise(string)`: the text wrapped in the colours chosen for it,
      with no tiebreaker. */
  function Colourise(s: string, palette: seq<Colour>, hash: string -> nat, contrasts: (Rgb, Rgb) -> bool): (r: Result<string>)
    ensures r.Success? <==> GetColours(palette, s, "", hash, contrasts).Success?
    ensures r.Success? ==> exists fg, bg :: fg in palette && bg in palette && ReadWrapped(r.value) == Some((bg.colorId, fg.colorId, s))
    ensures r.Success? ==>
      var pair := GetColours(palette, s, "", hash, contrasts).value;
      ReadWrapped(r.value) == Some((pair.1.colorId, pair.0.colorId, s))
  {
    var pair :- GetColours(palette, s, "", hash, contrasts);
    WrapRoundTrip(s, pair.0, pair.1);
    Success(Wrap(s, pair.0, pair.1))
  }

  /** The two values printed as `SYSTEM_COLOUR_FG` and `SYSTEM_COLOUR_BG`. */
  datatype Exports = Exports(fg: nat, bg: nat)

  /** The main block: red on black for root; otherwise the first colour of
      the pair chosen for the short host name on black, or white on black
      when choosing raises. `loaded` is the JSON colour map (`None` when it
      cannot be read) and `tiebreaker` the contents of `/etc/machine-id`
      ("" when absent). */
  function SystemColour(isRoot: bool, hostname: string, tiebreaker: string, loaded: Option<seq<Colour>>,
                        hash: string -> nat, contrasts: (Rgb, Rgb) -> bool): (e: Exports)
    ensures e.bg == 0
    ensures isRoot ==> e.fg == 9
    ensures !isRoot ==> e.fg == 37 || exists c :: c in Palette(loaded) && c.colorId == e.fg
    ensures !isRoot ==>
      var g := GetColours(Palette(loaded), ShortHostname(hostname), tiebreaker, hash, contrasts);
      e.fg == if g.Success? then g.value.0.colorId else 37
  {
    if isRoot then Exports(9, 0)
    else
      match GetColours(Palette(loaded), ShortHostname(hostname), tiebreaker, hash, contrasts)
      case Success(pair) => Exports(pair.0.colorId, 0)
      case Failure(_) => Exports(37, 0)
  }

  /** Only root gets one of the reserved reds. */
  lemma ReservedOnlyForRoot(isRoot: bool, hostname: string, tiebreaker: string, loaded: Option<seq<Colour>>,
                            hash: string -> nat, contrasts: (Rgb, Rgb) -> bool)
    ensures IsReserved(SystemColour(isRoot, hostname, tiebreaker, loaded, hash, contrasts).fg) <==> isRoot
  {
    var e := SystemColour(isRoot, hostname, tiebreaker, loaded, hash, contrasts);
    if isRoot {
      assert e.fg == 9;
    } else if e.fg != 37 {
      var c :| c in Palette(loaded) && c.colorId == e.fg;
    }
  }

  /** Without the JSON colour map every non-root prompt is white: the
      built-in colours have no `rgb`, so the contrast step raises and the
      catch-all prints 37. */
  lemma FallbackAlwaysWhite(hostname: string, tiebreaker: string, hash: string -> nat, contrasts: (Rgb, Rgb) -> bool)
    ensures SystemColour(false, hostname, tiebreaker, None, hash, contrasts) == Exports(37, 0)
  {
    FallbackPalette();
    FallbackHasNoRgb();
    var pal := Palette(None);
    NoRgbFails(pal, ShortHostname(hostname), tiebreaker, hash, contrasts);
  }
}

=== FILE: colour_palette.dfy ===
/** The colour table `bin/system-colour.py` works from: the 256-colour map
    loaded from JSON (or a short built-in list when that fails), with the
    strong reds reserved for root taken out, and `get_colour` lookup. */
module ColourPalette {
  import opened Wrappers
  import opened Seqs

  /** The map's `rgb` object, components nominally 0..255. */
  datatype Rgb = Rgb(r: int, g: int, b: int)

  /** One map entry. The built-in list has no `rgb` key, hence the
      `Option`. */
  datatype Colour = Colour(colorId: nat, name: string, rgb: Option<Rgb>)

  /** The ids of the strong reds kept for root's prompt. */
  predicate IsReserved(id: nat) {
    id == 160 || id == 196 || id == 9 || id == 88 || id == 124
  }

  /** The list used when the JSON map cannot be loaded. */
  const FallbackColours: seq<Colour> := [
    Colour(33, "Blue", None),
    Colour(37, "White", None),
    Colour(32, "Green", None),
    Colour(36, "Cyan", None),
    Colour(35, "Purple", None),
    Colour(34, "Blue", None),
    Colour(31, "Red", None)
  ]

  function IsUsable(c: Colour): bool {
    !IsReserved(c.colorId)
  }

  /** The entries whose id is not reserved, in their original order
      (`Seqs.FilterConcat` pins the order down). */
  function UsablePalette(list: seq<Colour>): (r: seq<Colour>)
    ensures forall c :: c in r <==> c in list && !IsReserved(c.colorId)
  {
    var r := Filter(IsUsable, list);
    forall c ensures c in r <==> c in list && !IsReserved(c.colorId) {
      FilterMember(IsUsable, list, c);
    }
    r
  }

  /** The filter keeps every copy of a usable entry and no copy of a
      reserved one. */
  lemma UsablePaletteCounts(list: seq<Colour>, c: Colour)
    ensures multiset(UsablePalette(list))[c] == if IsReserved(c.colorId) then 0 else multiset(list)[c]
  {
    FilterCount(IsUsable, list, c);
  }

  /** The filter keeps the order of the list: it works entry by entry,
      dropping reserved entries and keeping the rest in place. */
  lemma UsablePaletteOrder(a: seq<Colour>, b: seq<Colour>, c: Colour)
    ensures UsablePalette(a + b) == UsablePalette(a) + UsablePalette(b)
    ensures UsablePalette([c]) == if IsReserved(c.colorId) then [] else [c]
  {
    FilterConcat(IsUsable, a, b);
    assert Filter(IsUsable, [c]) == (if IsUsable(c) then [c] else []) + Filter(IsUsable, []);
  }

  /** `COLOUR_LIST`: the loaded map (`None` when the file is missing or not
      valid JSON) or the built-in list, reserved reds removed. */
  function Palette(loaded: Option<seq<Colour>>): seq<Colour> {
    UsablePalette(if loaded.Some? then loaded.value else FallbackColours)
  }

  /** No built-in colour is reserved, so the filter keeps the whole list. */
  lemma FallbackPalette()
    ensures Palette(None) == FallbackColours
  {
    FilterAll(IsUsable, FallbackColours);
  }

  /** The built-in colours carry no `rgb`. */
  lemma FallbackHasNoRgb()
    ensures forall c :: c in FallbackColours ==> c.rgb.None?
  {
  }

  /** `palette[i]` is the first entry with id `id`. */
  predicate FirstWithId(palette: seq<Colour>, id: nat, i: int) {
    0 <= i < |palette| && palette[i].colorId == id && forall j :: 0 <= j < i ==> palette[j].colorId != id
  }

  /** Position of the first entry with id `id`, `|palette|` when none has it. */
  function IndexOfId(palette: seq<Colour>, id: nat): (i: nat)
    ensures i <= |palette|
    ensures i < |palette| ==> FirstWithId(palette, id, i)
    ensures i == |palette| ==> forall j :: 0 <= j < |palette| ==> palette[j].colorId != id
    decreases |palette|
  {
    if |palette| == 0 then 0
    else if palette[0].colorId == id then 0
    else
      var i := 1 + IndexOfId(palette[1..], id);
      assert forall j :: 1 <= j < |palette| ==> palette[j] == palette[1..][j - 1];
      i
  }

  /** `get_colour(colorId)`: the first entry with that id; `ValueError` when
      there is none. */
  function GetColour(palette: seq<Colour>, id: nat): (r: Result<Colour>)
    ensures r.Success? <==> exists j :: 0 <= j < |palette| && palette[j].colorId == id
    ensures r.Success? ==> exists i :: FirstWithId(palette, id, i) && r.value == palette[i]
    ensures r.Failure? ==> r.error == "Invalid colorId"
  {
    var i := IndexOfId(palette, id);
    if i < |palette| then Success(palette[i]) else Failure("Invalid colorId")
  }
}

=== FILE: colour_select.dfy ===
/** How `bin/system-colour.py` picks a foreground and background colour for a
    seed (the short host name): `select_by_seed`, `get_contrasting_colours`
    and `get_colours`. The md5 digest of the seed is a `hash` parameter, read
    as the number `int(hexdigest, 16)`; the WCAG contrast ratio test
    (`rgb_contrast(...) >= 4.5`, floating point) is a `contrasts` parameter
    over the two `rgb` values. A raised exception is a `Failure`. */
module ColourSelect {
  import opened Wrappers
  import opened Seqs
  import opened ColourPalette
  import opened ColourMatch

  /** `select_by_seed(candidates, seed)` with the digest given: the entry at
      `digest % len(candidates)`; an empty list raises `ZeroDivisionError`. */
  function SelectBySeed<T>(cands: seq<T>, digest: nat): (r: Result<T>)
    ensures r.Success? <==> |cands| > 0
    ensures r.Success? ==> r.value in cands
  {
    if |cands| == 0 then Failure("integer modulo by zero") else Success(cands[digest % |cands|])
  }

  /** Every candidate is picked by some digest: the one equal to its
      index. */
  lemma SelectReachesEvery<T>(cands: seq<T>, i: nat)
    requires i < |cands|
    ensures SelectBySeed(cands, i) == Success(cands[i])
  {
  }

  /** `0.0 <= v / 255 <= 1.0` for an integer component `v`. */
  predicate InRange(v: int) {
    0 <= v <= 255
  }

  predicate ValidRgb(c: Rgb) {
    InRange(c.r) && InRange(c.g) && InRange(c.b)
  }

  /** The entry has an `rgb` key with components in range. */
  predicate HasValidRgb(c: Colour) {
    c.rgb.Some? && ValidRgb(c.rgb.value)
  }

  /** `rgb_contrast`'s range check for one colour, component by component. */
  function RangeCheck(c: Rgb): (r: Result<()>)
    ensures r.Success? <==> ValidRgb(c)
  {
    if !InRange(c.r) then Failure("r is out of valid range (0.0 - 1.0)")
    else if !InRange(c.g) then Failure("g is out of valid range (0.0 - 1.0)")
    else if !InRange(c.b) then Failure("b is out of valid range (0.0 - 1.0)")
    else Success(())
  }

  /** The two entries have `rgb` keys and their contrast passes the
      threshold. */
  predicate Contrasting(subject: Colour, cand: Colour, contrasts: (Rgb, Rgb) -> bool) {
    subject.rgb.Some? && cand.rgb.Some? && contrasts(subject.rgb.value, cand.rgb.value)
  }

  /** One iteration of `get_contrasting_colours`: a missing `rgb` key raises
      `KeyError`, a component out of range raises `ValueError`, otherwise the
      contrast decides. */
  function ContrastTest(subject: Colour, cand: Colour, contrasts: (Rgb, Rgb) -> bool): (r: Result<bool>)
    ensures r.Success? <==> HasValidRgb(subject) && HasValidRgb(cand)
    ensures r.Success? ==> r.value == Contrasting(subject, cand, contrasts)
  {
    if subject.rgb.None? || cand.rgb.None? then Failure("'rgb'")
    else
      var _ :- RangeCheck(subject.rgb.value);
      var _ :- RangeCheck(cand.rgb.value);
      Success(contrasts(subject.rgb.value, cand.rgb.value))
  }

  /** `get_contrasting_colours(subject)`: the palette entries whose contrast
      with `subject` passes, in palette order. It fails as soon as an entry it
      visits lacks a valid `rgb`, so it succeeds exactly when the palette is
      empty or every colour involved has one. */
  function ContrastingColours(subject: Colour, palette: seq<Colour>, contrasts: (Rgb, Rgb) -> bool): (r: Result<seq<Colour>>)
    ensures r.Success? <==> |palette| == 0 || (HasValidRgb(subject) && forall c :: c in palette ==> HasValidRgb(c))
    ensures r.Success? ==> r.value == Filter((c: Colour) => Contrasting(subject, c, contrasts), palette)
    decreases |palette|
  {
    if |palette| == 0 then Success([])
    else
      var keep :- ContrastTest(subject, palette[0], contrasts);
      var rest :- ContrastingColours(subject, palette[1..], contrasts);
      assert forall c :: c in palette <==> c == palette[0] || c in palette[1..];
      Success(if keep then [palette[0]] + rest else rest)
  }

  /** The palette colours whose name matches the seed. */
  function Matching(palette: seq<Colour>, seed: string): seq<Colour> {
    Filter((c: Colour) => WordMatchesColour(seed, c), palette)
  }

  /** Where the foreground comes from: `matching or COLOUR_LIST`. */
  function FgPool(palette: seq<Colour>, seed: string): seq<Colour> {
    var m := Matching(palette, seed);
    if |m| > 0 then m else palette
  }

  /** The seed the three selections use: the tiebreaker is appended only when
      more than one colour matches. */
  function SelectionSeed(palette: seq<Colour>, seed: string, tiebreaker: string): string {
    if |Matching(palette, seed)| > 1 then seed + tiebreaker else seed
  }

  /** A prompt pair: a foreground from the pool and a background from the
      palette that contrasts with it, in either order. */
  ghost predicate IsPromptPair(palette: seq<Colour>, seed: string, contrasts: (Rgb, Rgb) -> bool, pair: (Colour, Colour)) {
    exists fg, bg ::
      && fg in FgPool(palette, seed) && bg in palette && Contrasting(fg, bg, contrasts)
      && (pair == (fg, bg) || pair == (bg, fg))
  }

  /** The second half of `get_colours`: a background contrasting with `fg`,
      then the coin flip between `(fg, bg)` and `(bg, fg)`. */
  function PairWith(fg: Colour, palette: seq<Colour>, digest: nat, contrasts: (Rgb, Rgb) -> bool): (r: Result<(Colour, Colour)>)
    ensures r.Success? ==> exists bg :: bg in palette && Contrasting(fg, bg, contrasts) && (r.value == (fg, bg) || r.value == (bg, fg))
  {
    var bgs :- ContrastingColours(fg, palette, contrasts);
    var bg :- SelectBySeed(bgs, digest);
    FilterMember((c: Colour) => Contrasting(fg, c, contrasts), palette, bg);
    SelectBySeed([(fg, bg), (bg, fg)], digest)
  }

  /** The digest of the selection seed. */
  function Digest(palette: seq<Colour>, seed: string, tiebreaker: string, hash: string -> nat): nat {
    hash(SelectionSeed(palette, seed, tiebreaker))
  }

  /** The first half of `get_colours`: the foreground, drawn from the
      matching colours when there are any and from the whole palette
      otherwise. */
  function Foreground(palette: seq<Colour>, seed: string, digest: nat): (r: Result<Colour>)
    ensures r.Success? <==> |palette| > 0
    ensures r.Success? ==> r.value in FgPool(palette, seed) && r.value in palette
  {
    var pool := FgPool(palette, seed);
    var fg :- SelectBySeed(pool, digest);
    FilterMember((c: Colour) => WordMatchesColour(seed, c), palette, fg);
    Success(fg)
  }

  /** `get_colours(seed, tiebreaker)`. */
  function GetColours(palette: seq<Colour>, seed: string, tiebreaker: string, hash: string -> nat, contrasts: (Rgb, Rgb) -> bool): (r: Result<(Colour, Colour)>)
    ensures r.Success? ==> IsPromptPair(palette, seed, contrasts, r.value)
    ensures r.Success? ==> r.value.0 in palette && r.value.1 in palette
    ensures |palette| == 0 ==> r.Failure?
  {
    var digest := Digest(palette, seed, tiebreaker, hash);
    var fg :- Foreground(palette, seed, digest);
    PairWith(fg, palette, digest, contrasts)
  }

  /** A foreground with a valid `rgb`, in a palette of such colours holding
      one that contrasts with it, gets a pair. */
  lemma PairWithSucceeds(fg: Colour, palette: seq<Colour>, digest: nat, contrasts: (Rgb, Rgb) -> bool, d: Colour)
    requires HasValidRgb(fg) && forall c :: c in palette ==> HasValidRgb(c)
    requires d in palette && Contrasting(fg, d, contrasts)
    ensures PairWith(fg, palette, digest, contrasts).Success?
  {
    FilterMember((c: Colour) => Contrasting(fg, c, contrasts), palette, d);
  }

  /** With at most one matching colour the tiebreaker plays no part. */
  lemma TiebreakerUnused(palette: seq<Colour>, seed: string, t1: string, t2: string, hash: string -> nat, contrasts: (Rgb, Rgb) -> bool)
    requires |Matching(palette, seed)| <= 1
    ensures GetColours(palette, seed, t1, hash, contrasts) == GetColours(palette, seed, t2, hash, contrasts)
  {
  }

  /** When some colour's name matches the seed, one of the two returned
      colours is such a colour. */
  lemma MatchingColourChosen(palette: seq<Colour>, seed: string, tiebreaker: string, hash: string -> nat, contrasts: (Rgb, Rgb) -> bool)
    requires |Matching(palette, seed)| > 0
    requires GetColours(palette, seed, tiebreaker, hash, contrasts).Success?
    ensures var pair := GetColours(palette, seed, tiebreaker, hash, contrasts).value;
      WordMatchesColour(seed, pair.0) || WordMatchesColour(seed, pair.1)
  {
    var pair := GetColours(palette, seed, tiebreaker, hash, contrasts).value;
    var fg, bg :| fg in FgPool(palette, seed) && bg in palette && Contrasting(fg, bg, contrasts)
      && (pair == (fg, bg) || pair == (bg, fg));
    FilterMember((c: Colour) => WordMatchesColour(seed, c), palette, fg);
  }

  /** Some colour of the palette contrasts with `c`. */
  ghost predicate HasPartner(c: Colour, palette: seq<Colour>, contrasts: (Rgb, Rgb) -> bool) {
    exists d :: d in palette && Contrasting(c, d, contrasts)
  }

  /** When every colour has a valid `rgb` and a contrasting partner in the
      palette, `get_colours` does not raise. */
  lemma GetColoursSucceeds(palette: seq<Colour>, seed: string, tiebreaker: string, hash: string -> nat, contrasts: (Rgb, Rgb) -> bool)
    requires |palette| > 0
    requires forall c :: c in palette ==> HasValidRgb(c)
    requires forall c :: c in palette ==> HasPartner(c, palette, contrasts)
    ensures GetColours(palette, seed, tiebreaker, hash, contrasts).Success?
  {
    var digest := Digest(palette, seed, tiebreaker, hash);
    var fg := Foreground(palette, seed, digest).value;
    assert HasPartner(fg, palette, contrasts);
    var d :| d in palette && Contrasting(fg, d, contrasts);
    PairWithSucceeds(fg, palette, digest, contrasts, d);
  }

  /** A palette of entries without `rgb` (the built-in list) always makes
      `get_colours` raise: the foreground has no `rgb` to contrast with. */
  lemma NoRgbFails(palette: seq<Colour>, seed: string, tiebreaker: string, hash: string -> nat, contrasts: (Rgb, Rgb) -> bool)
    requires forall c :: c in palette ==> c.rgb.None?
    ensures GetColours(palette, seed, tiebreaker, hash, contrasts).Failure?
  {
    if |palette| > 0 {
      var digest := Digest(palette, seed, tiebreaker, hash);
      var fg := Foreground(palette, seed, digest).value;
      assert ContrastingColours(fg, palette, contrasts).Failure?;
    }
  }
}

=== FILE: date_like.dfy ===
/** The review-thread userscript's `isDateLike`: after `norm`, the whole text
    is either a month name, a day and a year (`Jan 5, 2024`) or an ISO date
    (`2024-01-05`). The regular expression is replaced by a left-to-right
    scanner, and the scanner is proved to accept exactly the strings the
    pattern describes. */
module DateLike {
  import opened Text
  import opened Decimal

  /** `[A-Za-z]`. */
  predicate IsLetter(c: char) {
    ('A' <= c <= 'Z') || ('a' <= c <= 'z')
  }

  /** Every character of `t[i..j]` satisfies `p`. */
  predicate Run(p: char -> bool, t: string, i: int, j: int) {
    0 <= i <= j <= |t| && forall k :: i <= k < j ==> p(t[k])
  }

  /** Where the run of `p` characters starting at `i` ends. */
  function SpanFrom(p: char -> bool, t: string, i: nat): (j: nat)
    requires i <= |t|
    ensures Run(p, t, i, j)
    ensures j < |t| ==> !p(t[j])
    decreases |t| - i
  {
    if i == |t| || !p(t[i]) then i else SpanFrom(p, t, i + 1)
  }

  /** A run that stops at the end or before a non-`p` character is the one
      `SpanFrom` finds. */
  lemma SpanFromExact(p: char -> bool, t: string, i: nat, j: nat)
    requires Run(p, t, i, j) && (j == |t| || !p(t[j]))
    ensures SpanFrom(p, t, i) == j
  {
  }

  /** The scanner for `[A-Za-z]{3,9}\s+\d{1,2},\s+\d{4}`: each class is
      consumed as far as it goes (the classes are disjoint, so the pattern
      has no other way to match), and the run lengths are then checked. */
  predicate ScanLongDate(t: string) {
    var a := SpanFrom(IsLetter, t, 0);
    var b := SpanFrom(IsSpace, t, a);
    var c := SpanFrom(IsDigit, t, b);
    && 3 <= a <= 9 && a < b && b + 1 <= c <= b + 2 && c < |t| && t[c] == ','
    && var d := SpanFrom(IsSpace, t, c + 1);
       c + 1 < d && d + 4 == |t| && SpanFrom(IsDigit, t, d) == |t|
  }

  /** The scanner for `\d{4}-\d{2}-\d{2}`. */
  predicate ScanIsoDate(t: string) {
    && |t| == 10
    && SpanFrom(IsDigit, t, 0) == 4 && t[4] == '-'
    && SpanFrom(IsDigit, t, 5) == 7 && t[7] == '-'
    && SpanFrom(IsDigit, t, 8) == 10
  }

  /** `t` splits at `a`, `b`, `c`, `d` into 3 to 9 letters, white space, one
      or two digits, a comma, white space and four digits. */
  predicate LongDateAt(t: string, a: int, b: int, c: int, d: int) {
    && 3 <= a <= 9 && Run(IsLetter, t, 0, a)
    && a < b && Run(IsSpace, t, a, b)
    && b + 1 <= c <= b + 2 && Run(IsDigit, t, b, c)
    && c < |t| && t[c] == ','
    && c + 1 < d && Run(IsSpace, t, c + 1, d)
    && d + 4 == |t| && Run(IsDigit, t, d, |t|)
  }

  /** The first alternative of the pattern, anchored at both ends. */
  ghost predicate LongDateForm(t: string) {
    exists a, b, c, d :: LongDateAt(t, a, b, c, d)
  }

  /** The second alternative of the pattern, anchored at both ends. */
  predicate IsoDateForm(t: string) {
    && |t| == 10
    && Run(IsDigit, t, 0, 4) && t[4] == '-'
    && Run(IsDigit, t, 5, 7) && t[7] == '-'
    && Run(IsDigit, t, 8, 10)
  }

  /** The scanner accepts exactly the texts the first alternative matches. */
  lemma ScanLongDateIff(t: string)
    ensures ScanLongDate(t) <==> LongDateForm(t)
  {
    ScanLongDateSound(t);
    if LongDateForm(t) {
      var a, b, c, d :| LongDateAt(t, a, b, c, d);
      LongDateScans(t, a, b, c, d);
    }
  }

  /** What the scanner accepts has the pattern's shape. */
  lemma ScanLongDateSound(t: string)
    ensures ScanLongDate(t) ==> LongDateForm(t)
  {
    if ScanLongDate(t) {
      var a := SpanFrom(IsLetter, t, 0);
      var b := SpanFrom(IsSpace, t, a);
      var c := SpanFrom(IsDigit, t, b);
      var d := SpanFrom(IsSpace, t, c + 1);
      assert LongDateAt(t, a, b, c, d);
    }
  }

  /** Every split with the pattern's shape is the one the scanner finds. */
  lemma LongDateScans(t: string, a: int, b: int, c: int, d: int)
    requires LongDateAt(t, a, b, c, d)
    ensures ScanLongDate(t)
  {
    SpanFromExact(IsLetter, t, 0, a);
    SpanFromExact(IsSpace, t, a, b);
    SpanFromExact(IsDigit, t, b, c);
    SpanFromExact(IsSpace, t, c + 1, d);
    SpanFromExact(IsDigit, t, d, |t|);
  }

  /** The scanner accepts exactly the texts the second alternative matches. */
  lemma ScanIsoDateIff(t: string)
    ensures ScanIsoDate(t) <==> IsoDateForm(t)
  {
    if IsoDateForm(t) {
      SpanFromExact(IsDigit, t, 0, 4);
      SpanFromExact(IsDigit, t, 5, 7);
      SpanFromExact(IsDigit, t, 8, 10);
    }
  }

  /** `isDateLike(s)`: the normalised text is one of the two date shapes. */
  function IsDateLike(s: string): (r: bool)
    ensures r <==> LongDateForm(Norm(s)) || IsoDateForm(Norm(s))
  {
    var t := Norm(s);
    ScanLongDateIff(t);
    ScanIsoDateIff(t);
    ScanLongDate(t) || ScanIsoDate(t)
  }
}

=== FILE: decimal.dfy ===
/** Decimal rendering of non-negative integers, as JavaScript template
    literals and Python f-strings render them, and the reader that inverts it. */
module Decimal {
  import opened Wrappers

  predicate IsDigit(c: char) {
    '0' <= c <= '9'
  }

  predicate AllDigits(s: string) {
    forall i :: 0 <= i < |s| ==> IsDigit(s[i])
  }

  function DigitChar(d: nat): (c: char)
    requires d < 10
    ensures IsDigit(c)
  {
    ('0' as int + d) as char
  }

  function DigitValue(c: char): (d: nat)
    requires IsDigit(c)
    ensures d < 10
  {
    c as int - '0' as int
  }

  /** The canonical decimal spelling of `n`: digits only, no leading zero
      except for zero itself. */
  function NatToString(n: nat): (r: string)
    ensures |r| > 0 && AllDigits(r)
    ensures r[0] == '0' ==> n == 0 && r == "0"
  {
    if n < 10 then [DigitChar(n)] else NatToString(n / 10) + [DigitChar(n % 10)]
  }

  /** The number a string of digits spells. */
  function ValueOf(s: string): nat
    requires AllDigits(s)
  {
    if |s| == 0 then 0 else ValueOf(s[..|s| - 1]) * 10 + DigitValue(s[|s| - 1])
  }

  lemma {:induction false} ValueOfNatToString(n: nat)
    ensures ValueOf(NatToString(n)) == n
  {
    if n >= 10 {
      var s := NatToString(n);
      assert s[..|s| - 1] == NatToString(n / 10);
      ValueOfNatToString(n / 10);
    }
  }

  /** Length of the leading run of digits. */
  function SpanDigits(s: string): (k: nat)
    ensures k <= |s| && AllDigits(s[..k])
    ensures k < |s| ==> !IsDigit(s[k])
  {
    if |s| == 0 || !IsDigit(s[0]) then 0
    else
      var k := SpanDigits(s[1..]);
      assert s[..k + 1] == [s[0]] + s[1..][..k];
      k + 1
  }

  /** Reads the leading decimal number of `s` and returns it with the rest of
      the string; `None` when `s` does not start with a digit. */
  function ReadNat(s: string): Option<(nat, string)> {
    var k := SpanDigits(s);
    if k == 0 then None else Some((ValueOf(s[..k]), s[k..]))
  }

  /** Reading back a rendered number recovers it and the text after it. */
  lemma ReadNatToString(n: nat, rest: string)
    requires |rest| == 0 || !IsDigit(rest[0])
    ensures ReadNat(NatToString(n) + rest) == Some((n, rest))
  {
    var d := NatToString(n);
    var s := d + rest;
    assert SpanDigits(s) == |d| by {
      SpanDigitsExact(d, rest);
    }
    assert s[..|d|] == d && s[|d|..] == rest;
    ValueOfNatToString(n);
  }

  lemma {:induction false} SpanDigitsExact(d: string, rest: string)
    requires AllDigits(d)
    requires |rest| == 0 || !IsDigit(rest[0])
    ensures SpanDigits(d + rest) == |d|
    decreases |d|
  {
    if |d| > 0 {
      assert (d + rest)[1..] == d[1..] + rest;
      SpanDigitsExact(d[1..], rest);
    } else {
      assert d + rest == rest;
    }
  }
}

=== FILE: hostname.dfy ===
/** The host name `bin/system-colour.py` colours by: the machine's name cut
    at the first ".", then at the first "(", then at the first "-". */
module Hostname {
  import opened Text

  /** `s.split(sep)[0]`: the text before the first `sep`, all of `s` when
      there is none. */
  function BeforeFirst(s: string, sep: char): (r: string)
    ensures IsPrefix(r, s)
    ensures forall k :: 0 <= k < |r| ==> r[k] != sep
    ensures |r| == |s| || s[|r|] == sep
    decreases |s|
  {
    if |s| == 0 || s[0] == sep then ""
    else
      var rest := BeforeFirst(s[1..], sep);
      assert forall k :: 1 <= k <= |rest| ==> ([s[0]] + rest)[k] == s[1..][k - 1];
      [s[0]] + rest
  }

  /** One of the three characters the name is cut at. */
  predicate IsCut(c: char) {
    c == '.' || c == '(' || c == '-'
  }

  /** The short host name. */
  function ShortHostname(h: string): (r: string)
    ensures IsPrefix(r, h)
    ensures forall k :: 0 <= k < |r| ==> !IsCut(r[k])
    ensures |r| == |h| || IsCut(h[|r|])
  {
    var a := BeforeFirst(h, '.');
    var b := BeforeFirst(a, '(');
    var c := BeforeFirst(b, '-');
    assert forall k :: 0 <= k < |c| ==> c[k] == b[k] == a[k];
    c
  }

  /** The short name is the longest prefix free of the three characters:
      any such prefix is a prefix of it. */
  lemma ShortHostnameLongest(h: string, p: string)
    requires IsPrefix(p, h)
    requires forall k :: 0 <= k < |p| ==> !IsCut(p[k])
    ensures IsPrefix(p, ShortHostname(h))
  {
    assert forall k :: 0 <= k < |p| ==> p[k] == h[k];
  }

  /** Shortening a short name changes nothing. */
  lemma ShortHostnameIdempotent(h: string)
    ensures ShortHostname(ShortHostname(h)) == ShortHostname(h)
  {
    var r := ShortHostname(h);
    ShortHostnameLongest(r, r);
  }
}

=== FILE: lex_order.dfy ===
/** Code-point lexicographic comparison of strings. It stands in for
    `String.prototype.localeCompare`, whose order depends on the browser's
    locale data; both are total orders, which is all the callers rely on. */
module LexOrder {
  import opened Sorting
  import opened Text

  /** Negative when `a` comes first, positive when `b` does, zero when equal. */
  function StrCompare(a: string, b: string): (r: int)
    ensures -1 <= r <= 1
    decreases |a|
  {
    if |a| == 0 && |b| == 0 then 0
    else if |a| == 0 then -1
    else if |b| == 0 then 1
    else if a[0] < b[0] then -1
    else if a[0] > b[0] then 1
    else StrCompare(a[1..], b[1..])
  }

  /** `a` is a proper prefix of `b`, or the two first differ at `i` with `a`
      holding the smaller character there. */
  predicate FirstLowerAt(a: string, b: string, i: nat) {
    i < |b| && a[..Min(i, |a|)] == b[..Min(i, |a|)] && (i == |a| || (i < |a| && a[i] < b[i]))
  }

  /** The dictionary order, stated without recursion. */
  ghost predicate LexLess(a: string, b: string) {
    exists i: nat :: FirstLowerAt(a, b, i)
  }

  /** Comparison is zero exactly on equal strings. */
  lemma {:induction false} StrCompareZero(a: string, b: string)
    ensures StrCompare(a, b) == 0 <==> a == b
    decreases |a|
  {
    if |a| > 0 && |b| > 0 && a[0] == b[0] {
      StrCompareZero(a[1..], b[1..]);
      assert a == [a[0]] + a[1..] && b == [b[0]] + b[1..];
    }
  }

  /** Swapping the arguments negates the result. */
  lemma {:induction false} StrCompareAntisymmetric(a: string, b: string)
    ensures StrCompare(a, b) == -StrCompare(b, a)
    decreases |a|
  {
    if |a| > 0 && |b| > 0 && a[0] == b[0] {
      StrCompareAntisymmetric(a[1..], b[1..]);
    }
  }

  lemma {:induction false} StrCompareTransitive(a: string, b: string, c: string)
    requires StrCompare(a, b) <= 0 && StrCompare(b, c) <= 0
    ensures StrCompare(a, c) <= 0
    decreases |a|
  {
    if |a| > 0 && |b| > 0 && |c| > 0 && a[0] == b[0] && b[0] == c[0] {
      StrCompareTransitive(a[1..], b[1..], c[1..]);
    }
  }

  /** `StrCompare` is a comparator the sort may use. */
  lemma StrCompareConsistent()
    ensures Consistent(StrCompare)
  {
    forall a, b ensures Antisymmetric(StrCompare, a, b) {
      StrCompareAntisymmetric(a, b);
    }
    forall a, b, c ensures Transitive(StrCompare, a, b, c) {
      if StrCompare(a, b) <= 0 && StrCompare(b, c) <= 0 {
        StrCompareTransitive(a, b, c);
      }
    }
  }

  /** A negative comparison means `a` precedes `b` in dictionary order. */
  lemma {:induction false} StrCompareLess(a: string, b: string)
    ensures StrCompare(a, b) < 0 <==> LexLess(a, b)
    decreases |a|
  {
    if |a| == 0 {
      if |b| > 0 {
        assert FirstLowerAt(a, b, 0);
      }
    } else if |b| == 0 {
    } else if a[0] < b[0] {
      assert FirstLowerAt(a, b, 0);
    } else if a[0] > b[0] {
      NotLexLessAfterGreater(a, b);
    } else {
      StrCompareLess(a[1..], b[1..]);
      LexLessTails(a, b);
    }
  }

  lemma NotLexLessAfterGreater(a: string, b: string)
    requires |a| > 0 && |b| > 0 && a[0] > b[0]
    ensures !LexLess(a, b)
  {
    forall i: nat ensures !FirstLowerAt(a, b, i) {
      if 0 < i < |b| {
        assert a[..Min(i, |a|)][0] == a[0];
        assert b[..Min(i, |a|)][0] == b[0];
      }
    }
  }

  /** Strings with the same first character compare as their tails do. */
  lemma LexLessTails(a: string, b: string)
    requires |a| > 0 && |b| > 0 && a[0] == b[0]
    ensures LexLess(a, b) <==> LexLess(a[1..], b[1..])
  {
    if LexLess(a[1..], b[1..]) {
      var i: nat :| FirstLowerAt(a[1..], b[1..], i);
      assert a[..Min(i + 1, |a|)] == [a[0]] + a[1..][..Min(i, |a| - 1)];
      assert b[..Min(i + 1, |a|)] == [b[0]] + b[1..][..Min(i, |a| - 1)];
      assert FirstLowerAt(a, b, i + 1);
    }
    if LexLess(a, b) {
      var i: nat :| FirstLowerAt(a, b, i);
      assert i > 0;
      assert a[1..][..Min(i - 1, |a| - 1)] == a[..Min(i, |a|)][1..];
      assert b[1..][..Min(i - 1, |a| - 1)] == b[..Min(i, |a|)][1..];
      assert FirstLowerAt(a[1..], b[1..], i - 1);
    }
  }
}

=== FILE: lines.dfy ===
/** Text made of lines separated by "\n": `lines.join("\n")` and its inverse
    `text.split("\n")`. */
module Lines {
  import opened Wrappers
  import opened Text

  /** No line break in `s`. */
  predicate NoNewline(s: string) {
    forall k :: 0 <= k < |s| ==> s[k] != '\n'
  }

  /** `norm` turns every line break into a space or drops it. */
  lemma NormalNoNewline(t: string)
    requires IsNormal(t)
    ensures NoNewline(t)
  {
    forall k | 0 <= k < |t| ensures t[k] != '\n' {
      assert SpaceSingleAt(t, k);
    }
  }

  lemma NormNoNewline(s: string)
    ensures NoNewline(Norm(s))
  {
    NormalNoNewline(Norm(s));
  }

  /** A prefix of a line is a line. */
  lemma PrefixNoNewline(p: string, s: string)
    requires IsPrefix(p, s) && NoNewline(s)
    ensures NoNewline(p)
  {
    forall k | 0 <= k < |p| ensures p[k] != '\n' {
      assert p[k] == s[..|p|][k];
    }
  }

  /** Every entry of `ls` is free of line breaks. */
  predicate AllNoNewline(ls: seq<string>) {
    forall i :: 0 <= i < |ls| ==> NoNewline(ls[i])
  }

  /** Index of the first line break in `s`, `|s|` when there is none. */
  function NewlineAt(s: string): (i: nat)
    ensures i <= |s|
    ensures NoNewline(s[..i])
    ensures i < |s| ==> s[i] == '\n'
  {
    if |s| == 0 || s[0] == '\n' then 0
    else
      var i := 1 + NewlineAt(s[1..]);
      assert s[..i] == [s[0]] + s[1..][..i - 1];
      i
  }

  /** `s.split("\n")`: the pieces between line breaks, at least one. */
  function SplitLines(s: string): (ls: seq<string>)
    ensures |ls| > 0
    ensures AllNoNewline(ls)
    ensures Join(ls, "\n") == s
    decreases |s|
  {
    var i := NewlineAt(s);
    if i == |s| then
      assert s[..i] == s;
      [s]
    else
      var rest := SplitLines(s[i + 1..]);
      JoinCons(s[..i], rest, "\n");
      assert s == s[..i] + "\n" + s[i + 1..];
      [s[..i]] + rest
  }

  /** Splitting a text joined from line-break-free lines gives the lines
      back. */
  lemma {:induction false} SplitJoin(ls: seq<string>)
    requires |ls| > 0 && AllNoNewline(ls)
    ensures SplitLines(Join(ls, "\n")) == ls
    decreases |ls|
  {
    NoNewlineAt(ls[0], "");
    if |ls| > 1 {
      var rest := ls[1..];
      assert AllNoNewline(rest) by {
        forall i | 0 <= i < |rest| ensures NoNewline(rest[i]) {
          assert rest[i] == ls[i + 1];
        }
      }
      SplitJoin(rest);
      JoinCons(ls[0], rest, "\n");
      assert ls == [ls[0]] + rest;
      var s := Join(ls, "\n");
      assert s == ls[0] + ("\n" + Join(rest, "\n"));
      NoNewlineAt(ls[0], "\n" + Join(rest, "\n"));
      assert s[..|ls[0]|] == ls[0];
      assert s[|ls[0]| + 1..] == Join(rest, "\n");
    } else {
      assert ls[0] + "" == ls[0];
    }
  }

  /** The first line break of `w + t` is the first of `t`, past `w`. */
  lemma NoNewlineAt(w: string, t: string)
    requires NoNewline(w)
    requires |t| == 0 || t[0] == '\n'
    ensures NewlineAt(w + t) == |w|
    decreases |w|
  {
    if |w| > 0 {
      assert (w + t)[1..] == w[1..] + t;
      NoNewlineAt(w[1..], t);
    }
  }

  /** The text after `prefix` when `line` starts with it. */
  function After(prefix: string, line: string): (r: Option<string>)
    ensures r.Some? <==> IsPrefix(prefix, line)
    ensures r.Some? ==> line == prefix + r.value
  {
    if IsPrefix(prefix, line) then
      assert line == prefix + line[|prefix|..];
      Some(line[|prefix|..])
    else None
  }

  lemma AfterPrefix(prefix: string, s: string)
    ensures After(prefix, prefix + s) == Some(s)
  {
    assert (prefix + s)[..|prefix|] == prefix;
  }
}

=== FILE: review_fields.dfy ===
/** The fields the review-thread userscript extracts from one open
    conversation before building its clipboard text: the pull request's
    title, and the line number and code snippet the thread points at. The
    page lookups become inputs: each is the text the selector chain finds
    (for an element's text, `innerText || textContent`), "" when it finds
    nothing. */
module ReviewFields {
  import opened Text
  import opened Lines

  /** `norm(s) || fallback`. */
  function NormOr(s: string, fallback: string): (r: string)
    ensures Norm(s) != "" ==> r == Norm(s)
    ensures Norm(s) == "" ==> r == fallback
    ensures NoNewline(fallback) ==> NoNewline(r)
  {
    var n := Norm(s);
    NormalNoNewline(n);
    if n != "" then n else fallback
  }

  /** `getPrTitle`: the normalised title text, or a placeholder when the page
      has none. */
  function PrTitle(titleText: string): (r: string)
    ensures |r| > 0 && NoNewline(r)
    ensures Norm(titleText) != "" ==> r == Norm(titleText)
    ensures Norm(titleText) == "" ==> r == "(unknown PR title)"
  {
    NormalNoNewline(Norm(titleText));
    NormOr(titleText, "(unknown PR title)")
  }

  /** The line number and code snippet `getLineAndSnippet` returns. */
  datatype LineSnippet = LineSnippet(line: string, snippet: string)

  /** The snippet as `getLineAndSnippet` keeps it: the normalised text cut to
      220 characters, whole when it is shorter. */
  function Snippet(snippetText: string): (r: string)
    ensures |r| <= 220 && IsPrefix(r, Norm(snippetText))
    ensures |Norm(snippetText)| <= 220 ==> r == Norm(snippetText)
    ensures |Norm(snippetText)| > 220 ==> |r| == 220
    ensures NoNewline(r)
  {
    var n := Norm(snippetText);
    NormalNoNewline(n);
    if n != "" then Take(n, 220) else ""
  }

  /** `getLineAndSnippet`: the normalised `data-line-number` attribute ("" when
      absent) and the snippet. */
  function LineAndSnippet(lineAttr: string, snippetText: string): (r: LineSnippet)
    ensures IsNormal(r.line) && NoNewline(r.line)
    ensures r.line == Norm(lineAttr)
    ensures r.snippet == Snippet(snippetText)
  {
    var line := Norm(lineAttr);
    NormalNoNewline(line);
    LineSnippet(line, Snippet(snippetText))
  }
}

=== FILE: review_thread.dfy ===
/** `buildPayload` end to end: the texts the review-thread userscript reads
    off the page for one conversation, the fields it extracts from them and
    the clipboard text it builds. */
module ReviewThread {
  import opened Wrappers
  import opened Text
  import opened Lines
  import opened ReviewFields
  import opened ThreadFile
  import opened ThreadTitles
  import opened ThreadComments
  import opened ThreadPayload

  /** What the selector chains find for one conversation. `bodies` are the
      comment bodies in page order; the first of them is also the body
      `getThreadTitle` previews. `pathish` is what `findPathishText` finds in
      the thread ("" for nothing). */
  datatype ThreadPage = ThreadPage(
    prTitleText: string,
    anchorText: string,
    fileRoot: Option<FileRoot>,
    pathish: string,
    lineAttr: string,
    snippetText: string,
    bodies: seq<CommentBody>)

  /** The text of the first comment body, "" when there is none. */
  function FirstBodyText(p: ThreadPage): string {
    if |p.bodies| > 0 then p.bodies[0].text else ""
  }

  /** The fields `buildPayload` gathers, in the order it gathers them. */
  function PageFields(p: ThreadPage): Fields {
    var ls := LineAndSnippet(p.lineAttr, p.snippetText);
    Fields(
      PrTitle(p.prTitleText),
      ThreadTitle(FirstBodyText(p), p.anchorText),
      Location(FileName(p.fileRoot, p.pathish), ls.line),
      ls.snippet,
      Entries(Comments(p.bodies)))
  }

  /** `buildPayload(threadRoot, resolveBtn)`. */
  function BuildPayload(p: ThreadPage): string {
    Payload(PageFields(p))
  }

  lemma EntryOneLine(c: Comment)
    requires NoNewline(c.author) && NoNewline(c.text)
    ensures NoNewline(Entry(c))
  {
    NoNewlineConcat("@", c.author);
    NoNewlineConcat("@" + c.author, ": ");
    NoNewlineConcat("@" + c.author + ": ", c.text);
  }

  /** Each collected entry is one line. */
  lemma EntriesOneLine(bodies: seq<CommentBody>)
    ensures AllNoNewline(Entries(Comments(bodies)))
  {
    var cs := Comments(bodies);
    forall k | 0 <= k < |cs| ensures NoNewline(Entry(cs[k])) {
      FirstTextsFirst(Candidates(bodies), k);
      var i :| FirstWithText(Candidates(bodies), i, cs[k].text) && cs[k] == Candidates(bodies)[i];
      EntryOneLine(cs[k]);
    }
  }

  /** The extracted fields hold no line break, given that the path-like text
      holds none (it is a match of `[\w.-]` characters and slashes). */
  lemma PageFieldsOneLine(p: ThreadPage)
    requires NoNewline(p.pathish)
    ensures OneLineFields(PageFields(p))
  {
    LocationOneLine(FileName(p.fileRoot, p.pathish), LineAndSnippet(p.lineAttr, p.snippetText).line);
    EntriesOneLine(p.bodies);
  }

  lemma LocationOneLine(file: string, line: string)
    requires NoNewline(file) && NoNewline(line)
    ensures NoNewline(Location(file, line))
  {
    NoNewlineConcat(file, ":");
    NoNewlineConcat(file + ":", line);
  }

  /** The copied text carries every extracted field: reading it back gives
      the PR title, thread title, location, snippet and comment entries that
      went in. */
  lemma BuildPayloadReads(p: ThreadPage)
    requires NoNewline(p.pathish)
    ensures ReadPayload(BuildPayload(p)) == Some(PageFields(p))
  {
    PageFieldsOneLine(p);
    PayloadRoundTrip(PageFields(p));
  }
}

=== FILE: seqs.dfy ===
/** Order-preserving filtering (`Array.prototype.filter`, Python list
    comprehensions with a condition) and first-occurrence de-duplication
    (`Array.from(new Set(xs))`). */
module Seqs {

  /** The elements of `s` satisfying `p`, in their original order. */
  function Filter<T>(p: T -> bool, s: seq<T>): (r: seq<T>)
    ensures |r| <= |s|
    ensures forall i :: 0 <= i < |r| ==> p(r[i])
  {
    if |s| == 0 then []
    else if p(s[0]) then [s[0]] + Filter(p, s[1..])
    else Filter(p, s[1..])
  }

  /** Filtering only drops elements: the result is a sub-multiset. */
  lemma {:induction false} FilterSubMultiset<T>(p: T -> bool, s: seq<T>)
    ensures multiset(Filter(p, s)) <= multiset(s)
    decreases |s|
  {
    if |s| > 0 {
      FilterSubMultiset(p, s[1..]);
      assert s == [s[0]] + s[1..];
    }
  }

  /** An element is kept exactly when it occurs and passes the test. */
  lemma {:induction false} FilterMember<T>(p: T -> bool, s: seq<T>, x: T)
    ensures x in Filter(p, s) <==> x in s && p(x)
    decreases |s|
  {
    if |s| > 0 {
      FilterMember(p, s[1..], x);
      assert s == [s[0]] + s[1..];
    }
  }

  /** Filtering keeps every copy of a passing value and none of a failing
      one. */
  lemma {:induction false} FilterCount<T>(p: T -> bool, s: seq<T>, x: T)
    ensures multiset(Filter(p, s))[x] == if p(x) then multiset(s)[x] else 0
    decreases |s|
  {
    if |s| > 0 {
      FilterCount(p, s[1..], x);
      assert s == [s[0]] + s[1..];
    }
  }

  /** Filtering distributes over concatenation; with `Filter(p, [x])` being
      `[x]` or `[]`, this pins `Filter` down and shows it keeps order. */
  lemma {:induction false} FilterConcat<T>(p: T -> bool, a: seq<T>, b: seq<T>)
    ensures Filter(p, a + b) == Filter(p, a) + Filter(p, b)
    decreases |a|
  {
    if |a| > 0 {
      assert (a + b)[1..] == a[1..] + b;
      FilterConcat(p, a[1..], b);
    } else {
      assert a + b == b;
    }
  }

  /** A filter no element passes yields nothing. */
  lemma {:induction false} FilterNone<T>(p: T -> bool, s: seq<T>)
    requires forall i :: 0 <= i < |s| ==> !p(s[i])
    ensures Filter(p, s) == []
    decreases |s|
  {
    if |s| > 0 {
      FilterNone(p, s[1..]);
    }
  }

  /** A filter every element passes is the identity. */
  lemma {:induction false} FilterAll<T>(p: T -> bool, s: seq<T>)
    requires forall i :: 0 <= i < |s| ==> p(s[i])
    ensures Filter(p, s) == s
    decreases |s|
  {
    if |s| > 0 {
      FilterAll(p, s[1..]);
    }
  }

  /** Filtering by a stronger condition after a weaker one is the same as
      filtering by the stronger one alone. */
  lemma {:induction false} FilterNarrow<T>(p: T -> bool, q: T -> bool, s: seq<T>)
    requires forall x :: p(x) ==> q(x)
    ensures Filter(p, s) == Filter(p, Filter(q, s))
    decreases |s|
  {
    if |s| > 0 {
      FilterNarrow(p, q, s[1..]);
    }
  }

  /** `s.map(f)`. */
  function Map<A, B>(f: A -> B, s: seq<A>): (r: seq<B>)
    ensures |r| == |s|
    ensures forall i :: 0 <= i < |s| ==> r[i] == f(s[i])
  {
    seq(|s|, i requires 0 <= i < |s| => f(s[i]))
  }

  /** Filtering before or after mapping keeps the same elements when the two
      tests agree through the map. */
  lemma {:induction false} FilterMap<A, B>(f: A -> B, p: A -> bool, q: B -> bool, s: seq<A>)
    requires forall a :: p(a) == q(f(a))
    ensures Map(f, Filter(p, s)) == Filter(q, Map(f, s))
    decreases |s|
  {
    if |s| > 0 {
      FilterMap(f, p, q, s[1..]);
      assert Map(f, s)[1..] == Map(f, s[1..]);
      if p(s[0]) {
        assert Map(f, [s[0]] + Filter(p, s[1..])) == [f(s[0])] + Map(f, Filter(p, s[1..]));
      }
    }
  }

  predicate Distinct<T(==)>(s: seq<T>) {
    forall i, j :: 0 <= i < j < |s| ==> s[i] != s[j]
  }

  /** In a sequence without repeats every value occurs at most once. */
  lemma {:induction false} DistinctCount<T>(s: seq<T>, x: T)
    requires Distinct(s)
    ensures multiset(s)[x] <= 1
    decreases |s|
  {
    if |s| > 0 {
      var tail := s[1..];
      assert Distinct(tail) by {
        forall i, j | 0 <= i < j < |tail| ensures tail[i] != tail[j] {
          assert tail[i] == s[i + 1] && tail[j] == s[j + 1];
        }
      }
      DistinctCount(tail, x);
      assert s == [s[0]] + tail;
      assert s[0] !in tail by {
        forall j | 0 <= j < |tail| ensures tail[j] != s[0] {
          assert tail[j] == s[j + 1];
        }
      }
    }
  }

  /** Two equal entries at `i` and `j` count twice. */
  lemma PairCount<T>(s: seq<T>, i: nat, j: nat)
    requires i < j < |s|
    ensures multiset(s)[s[i]] >= 1 + (if s[j] == s[i] then 1 else 0)
  {
    assert s == s[..j] + [s[j]] + s[j + 1..];
    assert s[..j][i] == s[i];
    assert s[i] in multiset(s[..j]);
  }

  /** Rearranging a sequence without repeats gives one without repeats. */
  lemma DistinctPermutation<T>(a: seq<T>, b: seq<T>)
    requires multiset(a) == multiset(b) && Distinct(a)
    ensures Distinct(b)
  {
    forall i, j | 0 <= i < j < |b| ensures b[i] != b[j] {
      PairCount(b, i, j);
      DistinctCount(a, b[i]);
    }
  }

  /** The distinct elements of `s`, each once. Only the set of elements is
      stated: the one caller sorts the result, so the order is not used. */
  function Dedup<T(==,!new)>(s: seq<T>): (r: seq<T>)
    ensures Distinct(r)
    ensures forall x :: x in r <==> x in s
    ensures |r| <= |s|
  {
    if |s| == 0 then []
    else
      var d := Dedup(s[..|s| - 1]);
      var x := s[|s| - 1];
      assert s == s[..|s| - 1] + [x];
      if x in d then d else d + [x]
  }
}

=== FILE: sorting.dfy ===
/** `Array.prototype.sort` with a comparator. The language requires this sort
    to be stable; the model is a stable insertion sort, and `StableSortUnique`
    shows that every stable sort of the same input produces the same output,
    so the choice of algorithm does not matter. */
module Sorting {
  import opened Seqs

  function Sign(x: int): int {
    if x < 0 then -1 else if x > 0 then 1 else 0
  }

  /** Swapping the arguments flips the comparator's sign. */
  ghost predicate Antisymmetric<T>(cmp: (T, T) -> int, a: T, b: T) {
    Sign(cmp(a, b)) == -Sign(cmp(b, a))
  }

  /** "Not after" is transitive on `a`, `b`, `c`. */
  ghost predicate Transitive<T>(cmp: (T, T) -> int, a: T, b: T, c: T) {
    cmp(a, b) <= 0 && cmp(b, c) <= 0 ==> cmp(a, c) <= 0
  }

  /** A comparator in the JavaScript sense: negative means "a before b",
      positive "b before a", zero "either". It is consistent when it is
      antisymmetric and transitive everywhere, which is what the language
      asks of a comparator for the sort result to be defined. */
  ghost predicate Consistent<T(!new)>(cmp: (T, T) -> int) {
    && (forall a, b :: Antisymmetric(cmp, a, b))
    && (forall a, b, c :: Transitive(cmp, a, b, c))
  }

  ghost predicate Sorted<T>(cmp: (T, T) -> int, s: seq<T>) {
    forall i, j :: 0 <= i < j < |s| ==> cmp(s[i], s[j]) <= 0
  }

  /** The elements the comparator cannot tell apart from `y`. */
  function EquivalentTo<T>(cmp: (T, T) -> int, y: T): T -> bool {
    z => cmp(y, z) == 0
  }

  /** Each comparator-equivalence class appears in `r` in the same relative
      order as in `s`. */
  ghost predicate StableFor<T(!new)>(cmp: (T, T) -> int, s: seq<T>, r: seq<T>) {
    forall y :: Filter(EquivalentTo(cmp, y), r) == Filter(EquivalentTo(cmp, y), s)
  }

  /** Places `x` before the first element that must come after it. */
  function Insert<T>(cmp: (T, T) -> int, x: T, s: seq<T>): (r: seq<T>)
    ensures |r| == |s| + 1
  {
    if |s| == 0 then [x]
    else if cmp(x, s[0]) < 0 then [x] + s
    else [s[0]] + Insert(cmp, x, s[1..])
  }

  /** Stable insertion sort: each element is inserted after every earlier
      element it is equivalent to. */
  function Sort<T>(cmp: (T, T) -> int, s: seq<T>): (r: seq<T>)
    ensures |r| == |s|
  {
    if |s| == 0 then [] else Insert(cmp, s[|s| - 1], Sort(cmp, s[..|s| - 1]))
  }

  lemma {:induction false} InsertPermutes<T>(cmp: (T, T) -> int, x: T, s: seq<T>)
    ensures multiset(Insert(cmp, x, s)) == multiset(s) + multiset{x}
    decreases |s|
  {
    if |s| > 0 && cmp(x, s[0]) >= 0 {
      InsertPermutes(cmp, x, s[1..]);
      assert s == [s[0]] + s[1..];
    }
  }

  /** The sorted output is a permutation of the input. */
  lemma {:induction false} SortPermutes<T>(cmp: (T, T) -> int, s: seq<T>)
    ensures multiset(Sort(cmp, s)) == multiset(s)
    decreases |s|
  {
    if |s| > 0 {
      SortPermutes(cmp, s[..|s| - 1]);
      InsertPermutes(cmp, s[|s| - 1], Sort(cmp, s[..|s| - 1]));
      assert s == s[..|s| - 1] + [s[|s| - 1]];
    }
  }

  lemma ConsistentReflexive<T(!new)>(cmp: (T, T) -> int, a: T)
    requires Consistent(cmp)
    ensures cmp(a, a) == 0
  {
    assert Antisymmetric(cmp, a, a);
  }

  lemma ConsistentFlip<T(!new)>(cmp: (T, T) -> int, a: T, b: T)
    requires Consistent(cmp)
    ensures cmp(a, b) < 0 <==> cmp(b, a) > 0
    ensures cmp(a, b) == 0 <==> cmp(b, a) == 0
  {
    assert Antisymmetric(cmp, a, b);
  }

  lemma ConsistentStrict<T(!new)>(cmp: (T, T) -> int, a: T, b: T, c: T)
    requires Consistent(cmp)
    requires cmp(a, b) < 0 && cmp(b, c) <= 0
    ensures cmp(a, c) < 0
  {
    assert Antisymmetric(cmp, a, c);
    assert Antisymmetric(cmp, a, b);
    assert Transitive(cmp, b, c, a);
  }

  lemma ConsistentEquivalent<T(!new)>(cmp: (T, T) -> int, a: T, b: T, c: T)
    requires Consistent(cmp)
    requires cmp(a, b) == 0 && cmp(b, c) == 0
    ensures cmp(a, c) == 0
  {
    assert Antisymmetric(cmp, a, b);
    assert Antisymmetric(cmp, b, c);
    assert Antisymmetric(cmp, a, c);
    assert Transitive(cmp, a, b, c);
    assert Transitive(cmp, c, b, a);
  }

  /** A sequence with a head is sorted when its tail is and the head comes
      no later than every element of the tail. */
  lemma SortedCons<T>(cmp: (T, T) -> int, a: T, t: seq<T>)
    requires Sorted(cmp, t)
    requires forall k :: 0 <= k < |t| ==> cmp(a, t[k]) <= 0
    ensures Sorted(cmp, [a] + t)
  {
    var r := [a] + t;
    forall i, j | 0 <= i < j < |r| ensures cmp(r[i], r[j]) <= 0 {
      assert r[j] == t[j - 1];
      if i > 0 {
        assert r[i] == t[i - 1];
      }
    }
  }

  lemma SortedTail<T>(cmp: (T, T) -> int, s: seq<T>)
    requires Sorted(cmp, s) && |s| > 0
    ensures Sorted(cmp, s[1..])
  {
    forall i, j | 0 <= i < j < |s| - 1 ensures cmp(s[1..][i], s[1..][j]) <= 0 {
      assert s[1..][i] == s[i + 1] && s[1..][j] == s[j + 1];
    }
  }

  /** Every element of `Insert(cmp, x, s)` is `x` or an element of `s`. */
  lemma InsertElements<T>(cmp: (T, T) -> int, x: T, s: seq<T>, k: nat)
    requires k < |Insert(cmp, x, s)|
    ensures Insert(cmp, x, s)[k] == x || exists m :: 0 <= m < |s| && s[m] == Insert(cmp, x, s)[k]
  {
    InsertPermutes(cmp, x, s);
    var it := Insert(cmp, x, s);
    assert it[k] in multiset(s) + multiset{x};
  }

  lemma {:induction false} InsertSorted<T(!new)>(cmp: (T, T) -> int, x: T, s: seq<T>)
    requires Consistent(cmp) && Sorted(cmp, s)
    ensures Sorted(cmp, Insert(cmp, x, s))
    decreases |s|
  {
    if |s| == 0 {
    } else if cmp(x, s[0]) < 0 {
      forall k | 0 <= k < |s| ensures cmp(x, s[k]) <= 0 {
        if k > 0 {
          ConsistentStrict(cmp, x, s[0], s[k]);
        }
      }
      SortedCons(cmp, x, s);
    } else {
      var tail := s[1..];
      SortedTail(cmp, s);
      InsertSorted(cmp, x, tail);
      var it := Insert(cmp, x, tail);
      ConsistentFlip(cmp, x, s[0]);
      forall k | 0 <= k < |it| ensures cmp(s[0], it[k]) <= 0 {
        InsertElements(cmp, x, tail, k);
        if it[k] != x {
          var m :| 0 <= m < |tail| && tail[m] == it[k];
          assert tail[m] == s[m + 1];
        }
      }
      SortedCons(cmp, s[0], it);
    }
  }

  /** The sorted output is ordered by the comparator. */
  lemma {:induction false} SortSorted<T(!new)>(cmp: (T, T) -> int, s: seq<T>)
    requires Consistent(cmp)
    ensures Sorted(cmp, Sort(cmp, s))
    decreases |s|
  {
    if |s| > 0 {
      SortSorted(cmp, s[..|s| - 1]);
      InsertSorted(cmp, s[|s| - 1], Sort(cmp, s[..|s| - 1]));
    }
  }

  /** Inserting `x` puts it after everything already present that is
      equivalent to it. */
  lemma {:induction false} InsertStable<T(!new)>(cmp: (T, T) -> int, x: T, s: seq<T>, y: T)
    requires Consistent(cmp) && Sorted(cmp, s)
    ensures Filter(EquivalentTo(cmp, y), Insert(cmp, x, s))
         == Filter(EquivalentTo(cmp, y), s) + Filter(EquivalentTo(cmp, y), [x])
    decreases |s|
  {
    var p := EquivalentTo(cmp, y);
    if |s| == 0 {
      assert Insert(cmp, x, s) == [x];
    } else if cmp(x, s[0]) < 0 {
      assert Insert(cmp, x, s) == [x] + s;
      if p(x) {
        forall m | 0 <= m < |s| ensures !p(s[m]) {
          var z := s[m];
          assert cmp(x, z) < 0 by {
            if m > 0 {
              ConsistentStrict(cmp, x, s[0], z);
            }
          }
          ConsistentFlip(cmp, y, x);
          ConsistentFlip(cmp, x, z);
          if cmp(y, z) == 0 {
            ConsistentEquivalent(cmp, x, y, z);
          }
        }
      }
      FilterInFront(p, x, s);
    } else {
      var tail := s[1..];
      SortedTail(cmp, s);
      InsertStable(cmp, x, tail, y);
      assert Insert(cmp, x, s) == [s[0]] + Insert(cmp, x, tail);
      FilterMoveBack(p, s[0], tail, Insert(cmp, x, tail), [x]);
      assert s == [s[0]] + tail;
    }
  }

  /** Putting `x` in front of `s` changes nothing for a filter that either
      rejects `x` or rejects all of `s`. */
  lemma {:induction false} FilterInFront<T>(p: T -> bool, x: T, s: seq<T>)
    requires p(x) ==> forall m :: 0 <= m < |s| ==> !p(s[m])
    ensures Filter(p, [x] + s) == Filter(p, s) + Filter(p, [x])
  {
    FilterConcat(p, [x], s);
    if p(x) {
      FilterNone(p, s);
    }
  }

  lemma {:induction false} FilterMoveBack<T>(p: T -> bool, h: T, tail: seq<T>, it: seq<T>, xs: seq<T>)
    requires Filter(p, it) == Filter(p, tail) + Filter(p, xs)
    ensures Filter(p, [h] + it) == Filter(p, [h] + tail) + Filter(p, xs)
  {
    var ft, fx := Filter(p, tail), Filter(p, xs);
    FilterCons(p, h, it);
    FilterCons(p, h, tail);
    if p(h) {
      calc {
        Filter(p, [h] + it);
        [h] + (ft + fx);
        ([h] + ft) + fx;
        Filter(p, [h] + tail) + fx;
      }
    } else {
      calc {
        Filter(p, [h] + it);
        ft + fx;
        Filter(p, [h] + tail) + fx;
      }
    }
  }

  /** One step of `Filter` on a sequence written as head and tail. */
  lemma {:induction false} FilterCons<T>(p: T -> bool, h: T, t: seq<T>)
    ensures p(h) ==> Filter(p, [h] + t) == [h] + Filter(p, t)
    ensures !p(h) ==> Filter(p, [h] + t) == Filter(p, t)
  {
    assert ([h] + t)[0] == h && ([h] + t)[1..] == t;
  }

  /** The sort is stable: within each equivalence class the input order is
      kept. */
  lemma {:induction false} SortStable<T(!new)>(cmp: (T, T) -> int, s: seq<T>)
    requires Consistent(cmp)
    ensures StableFor(cmp, s, Sort(cmp, s))
    decreases |s|
  {
    if |s| > 0 {
      var init := s[..|s| - 1];
      var x := s[|s| - 1];
      SortStable(cmp, init);
      SortSorted(cmp, init);
      assert s == init + [x];
      forall y ensures Filter(EquivalentTo(cmp, y), Sort(cmp, s)) == Filter(EquivalentTo(cmp, y), s) {
        InsertStable(cmp, x, Sort(cmp, init), y);
        FilterConcat(EquivalentTo(cmp, y), init, [x]);
      }
    }
  }

  /** Every stable sort gives the same answer: two sorted arrangements that
      keep each equivalence class in the same order are equal. */
  lemma {:induction false} StableSortUnique<T(!new)>(cmp: (T, T) -> int, a: seq<T>, b: seq<T>)
    requires Consistent(cmp)
    requires Sorted(cmp, a) && Sorted(cmp, b)
    requires forall y :: Filter(EquivalentTo(cmp, y), a) == Filter(EquivalentTo(cmp, y), b)
    ensures a == b
    decreases |a| + |b|
  {
    if |a| == 0 && |b| == 0 {
    } else if |b| == 0 {
      ConsistentReflexive(cmp, a[0]);
      FilterHeadIn(EquivalentTo(cmp, a[0]), a, b);
    } else if |a| == 0 {
      ConsistentReflexive(cmp, b[0]);
      FilterHeadIn(EquivalentTo(cmp, b[0]), b, a);
    } else {
      HeadsEquivalent(cmp, a, b);
      ConsistentReflexive(cmp, a[0]);
      FilterSameHead(EquivalentTo(cmp, a[0]), a, b);
      SortedTail(cmp, a);
      SortedTail(cmp, b);
      forall z ensures Filter(EquivalentTo(cmp, z), a[1..]) == Filter(EquivalentTo(cmp, z), b[1..]) {
        FilterDropHead(EquivalentTo(cmp, z), a, b);
      }
      StableSortUnique(cmp, a[1..], b[1..]);
      assert a == [a[0]] + a[1..] && b == [b[0]] + b[1..];
    }
  }

  /** A head that passes the filter shows up wherever the filtered results
      agree. */
  lemma {:induction false} FilterHeadIn<T>(p: T -> bool, a: seq<T>, b: seq<T>)
    requires |a| > 0 && p(a[0])
    requires Filter(p, a) == Filter(p, b)
    ensures a[0] in b
  {
    FilterMember(p, a, a[0]);
    FilterMember(p, b, a[0]);
  }

  /** Two sequences whose heads both pass the filter and whose filtered
      results agree start with the same element. */
  lemma {:induction false} FilterSameHead<T>(p: T -> bool, a: seq<T>, b: seq<T>)
    requires |a| > 0 && |b| > 0 && p(a[0]) && p(b[0])
    requires Filter(p, a) == Filter(p, b)
    ensures a[0] == b[0]
  {
    assert Filter(p, a)[0] == a[0];
    assert Filter(p, b)[0] == b[0];
  }

  /** Removing a common head keeps the filtered results equal. */
  lemma {:induction false} FilterDropHead<T>(p: T -> bool, a: seq<T>, b: seq<T>)
    requires |a| > 0 && |b| > 0 && a[0] == b[0]
    requires Filter(p, a) == Filter(p, b)
    ensures Filter(p, a[1..]) == Filter(p, b[1..])
  {
    var fa, fb := Filter(p, a[1..]), Filter(p, b[1..]);
    if p(a[0]) {
      assert Filter(p, a) == [a[0]] + fa && Filter(p, b) == [a[0]] + fb;
      assert ([a[0]] + fa)[1..] == fa && ([a[0]] + fb)[1..] == fb;
    }
  }

  /** Under the hypotheses of `StableSortUnique`, the two first elements are
      equivalent. */
  lemma HeadsEquivalent<T(!new)>(cmp: (T, T) -> int, a: seq<T>, b: seq<T>)
    requires Consistent(cmp)
    requires |a| > 0 && |b| > 0
    requires Sorted(cmp, a) && Sorted(cmp, b)
    requires forall y :: Filter(EquivalentTo(cmp, y), a) == Filter(EquivalentTo(cmp, y), b)
    ensures cmp(a[0], b[0]) == 0
  {
    var x, y := a[0], b[0];
    ConsistentReflexive(cmp, x);
    ConsistentReflexive(cmp, y);
    FilterHeadIn(EquivalentTo(cmp, x), a, b);
    FilterHeadIn(EquivalentTo(cmp, y), b, a);
    var m :| 0 <= m < |b| && b[m] == x;
    var k :| 0 <= k < |a| && a[k] == y;
    assert cmp(y, x) <= 0 by {
      if m > 0 {
        assert cmp(b[0], b[m]) <= 0;
      }
    }
    assert cmp(x, y) <= 0 by {
      if k > 0 {
        assert cmp(a[0], a[k]) <= 0;
      }
    }
    ConsistentFlip(cmp, x, y);
  }

  /** A comparator that never distinguishes two elements leaves the input
      order untouched. */
  lemma SortTrivialComparator<T(!new)>(cmp: (T, T) -> int, s: seq<T>)
    requires forall a, b :: cmp(a, b) == 0
    ensures Sort(cmp, s) == s
  {
    forall a, b ensures Antisymmetric(cmp, a, b) {
    }
    forall a, b, c ensures Transitive(cmp, a, b, c) {
    }
    SortSorted(cmp, s);
    SortStable(cmp, s);
    StableSortUnique(cmp, Sort(cmp, s), s);
  }
}

=== FILE: text.dfy ===
/** String helpers shared by both userscripts: JavaScript white space, the
    `norm` collapse-and-trim, `split(/\s+/).filter(Boolean)`, `includes`,
    ASCII lower-casing, `slice(0, n)` and `join`. */
module Text {

  /** The characters that JavaScript's `\s` class and `String.prototype.trim`
      both treat as white space (WhiteSpace and LineTerminator): tab, line
      feed, vertical tab, form feed and carriage return are U+0009 to U+000D. */
  predicate IsSpace(c: char) {
    || c == ' ' || ('\t' <= c <= '\r') || c == '\U{A0}' || c == '\U{1680}'
    || ('\U{2000}' <= c <= '\U{200A}') || ('\U{2028}' <= c <= '\U{2029}')
    || c == '\U{202F}' || c == '\U{205F}' || c == '\U{3000}' || c == '\U{FEFF}'
  }

  function Min(x: int, y: int): int {
    if x <= y then x else y
  }

  /** `Boolean(s)` for a string. */
  function IsNonEmpty(s: string): bool {
    |s| > 0
  }

  predicate NoSpace(s: string) {
    forall i :: 0 <= i < |s| ==> !IsSpace(s[i])
  }

  /** A non-empty piece free of white space, as `split(/\s+/)` leaves them. */
  predicate IsWord(w: string) {
    |w| > 0 && NoSpace(w)
  }

  /** Every white-space character is a plain space and is not followed by
      another white-space character. */
  predicate Collapsed(t: string) {
    forall i :: 0 <= i < |t| ==> SpaceSingleAt(t, i)
  }

  /** The character at `i`, if white space, is a plain space and the next one
      is not white space. Kept as its own predicate so that the quantifier in
      `Collapsed` fires on it alone rather than on every index of `t`. */
  predicate SpaceSingleAt(t: string, i: int) {
    0 <= i < |t| && IsSpace(t[i]) ==> t[i] == ' ' && (i + 1 < |t| ==> !IsSpace(t[i + 1]))
  }

  /** The shape `norm` produces: collapsed, and no white space at either end. */
  predicate IsNormal(t: string) {
    && Collapsed(t)
    && (|t| > 0 ==> !IsSpace(t[0]) && !IsSpace(t[|t| - 1]))
  }

  /** Leading white space removed (`trimStart`). */
  function DropSpaces(s: string): (r: string)
    ensures |r| <= |s| && r == s[|s| - |r|..]
    ensures |r| > 0 ==> !IsSpace(r[0])
    ensures forall i :: 0 <= i < |s| - |r| ==> IsSpace(s[i])
  {
    if |s| > 0 && IsSpace(s[0]) then DropSpaces(s[1..]) else s
  }

  /** Trailing white space removed (`trimEnd`). */
  function TrimEnd(s: string): (r: string)
    ensures |r| <= |s| && r == s[..|r|]
    ensures |r| > 0 ==> !IsSpace(r[|r| - 1])
    ensures forall i :: |r| <= i < |s| ==> IsSpace(s[i])
  {
    if |s| > 0 && IsSpace(s[|s| - 1]) then TrimEnd(s[..|s| - 1]) else s
  }

  /** `s.replace(/\s+/g, " ")`: every maximal white-space run becomes one space. */
  function Collapse(s: string): (r: string)
    ensures Collapsed(r)
    ensures |r| == 0 <==> |s| == 0
    ensures |r| > 0 ==> (IsSpace(r[0]) <==> IsSpace(s[0]))
    decreases |s|
  {
    if |s| == 0 then ""
    else if IsSpace(s[0]) then
      var rest := Collapse(DropSpaces(s[1..]));
      CollapsedCons(' ', rest);
      [' '] + rest
    else
      var rest := Collapse(s[1..]);
      CollapsedCons(s[0], rest);
      [s[0]] + rest
  }

  /** A character in front of a collapsed string keeps it collapsed, unless it
      starts a second white-space character or is white space other than a
      plain space. */
  lemma CollapsedCons(c: char, t: string)
    requires Collapsed(t)
    requires IsSpace(c) ==> c == ' ' && (|t| > 0 ==> !IsSpace(t[0]))
    ensures Collapsed([c] + t)
  {
    var u := [c] + t;
    forall i | 0 <= i < |u| ensures SpaceSingleAt(u, i) {
      if i > 0 {
        assert SpaceSingleAt(t, i - 1);
        assert u[i] == t[i - 1];
        assert i + 1 < |u| ==> u[i + 1] == t[i];
      }
    }
  }

  /** A prefix of a collapsed string is collapsed. */
  lemma CollapsedPrefix(t: string, k: nat)
    requires Collapsed(t) && k <= |t|
    ensures Collapsed(t[..k])
  {
    var u := t[..k];
    forall i | 0 <= i < |u| ensures SpaceSingleAt(u, i) {
      assert SpaceSingleAt(t, i);
    }
  }

  /** `norm(s)`: `(s || "").replace(/\s+/g, " ").trim()`; an absent value is
      the empty string here. */
  function Norm(s: string): (r: string)
    ensures IsNormal(r)
  {
    var c := Collapse(s);
    var d := DropSpaces(c);
    CollapsedSuffix(c, |c| - |d|);
    var r := TrimEnd(d);
    CollapsedPrefix(d, |r|);
    r
  }

  lemma {:induction false} CollapseFixed(t: string)
    requires Collapsed(t)
    ensures Collapse(t) == t
    decreases |t|
  {
    if |t| == 0 {
    } else if IsSpace(t[0]) {
      var rest := t[1..];
      CollapsedSuffix(t, 1);
      assert SpaceSingleAt(t, 0);
      assert DropSpaces(rest) == rest by {
        if |rest| > 0 {
          assert !IsSpace(t[1]);
        }
      }
      CollapseFixed(rest);
      assert t == [' '] + rest;
    } else {
      var rest := t[1..];
      CollapsedSuffix(t, 1);
      CollapseFixed(rest);
      assert t == [t[0]] + rest;
    }
  }

  /** A string already in `norm`'s output shape is left unchanged by it. */
  lemma NormFixesNormal(t: string)
    requires IsNormal(t)
    ensures Norm(t) == t
  {
    CollapseFixed(t);
  }

  /** `norm` is idempotent. */
  lemma NormIdempotent(s: string)
    ensures Norm(Norm(s)) == Norm(s)
  {
    NormFixesNormal(Norm(s));
  }

  /** Length of the leading run of non-white-space characters. */
  function SpanNonSpace(s: string): (n: nat)
    ensures n <= |s|
    ensures NoSpace(s[..n])
    ensures n < |s| ==> IsSpace(s[n])
  {
    if |s| == 0 || IsSpace(s[0]) then 0
    else
      var k := SpanNonSpace(s[1..]);
      assert s[..k + 1] == [s[0]] + s[1..][..k];
      k + 1
  }

  /** `s.split(/\s+/).filter(Boolean)`: the maximal white-space-free pieces of
      `s`, empty pieces dropped. */
  function Words(s: string): (ws: seq<string>)
    ensures forall k :: 0 <= k < |ws| ==> IsWord(ws[k])
    decreases |s|
  {
    var t := DropSpaces(s);
    if |t| == 0 then []
    else
      var n := SpanNonSpace(t);
      [t[..n]] + Words(t[n..])
  }

  /** `ws.join(sep)`. */
  function Join(ws: seq<string>, sep: string): string {
    if |ws| == 0 then ""
    else if |ws| == 1 then ws[0]
    else ws[0] + sep + Join(ws[1..], sep)
  }

  /** A suffix of a collapsed string is collapsed. */
  lemma {:induction false} CollapsedSuffix(t: string, k: nat)
    requires Collapsed(t) && k <= |t|
    ensures Collapsed(t[k..])
  {
    var u := t[k..];
    forall i | 0 <= i < |u| ensures SpaceSingleAt(u, i) {
      assert SpaceSingleAt(t, k + i);
      assert u[i] == t[k + i];
    }
  }

  /** Leading white space does not change the words. */
  lemma {:induction false} WordsSkipSpaces(s: string)
    ensures Words(s) == Words(DropSpaces(s))
  {
    var t := DropSpaces(s);
    assert DropSpaces(t) == t;
  }

  /** Splitting a `norm`-shaped string into words and joining them back with
      single spaces gives the string back. */
  lemma {:induction false} JoinWordsOfNormal(t: string)
    requires IsNormal(t)
    ensures Join(Words(t), " ") == t
    decreases |t|
  {
    if |t| > 0 {
      assert DropSpaces(t) == t;
      var n := SpanNonSpace(t);
      var w := t[..n];
      var rest := t[n..];
      assert Words(t) == [w] + Words(rest);
      if |rest| == 0 {
        assert w == t;
      } else {
        var tail := t[n + 1..];
        assert SpaceSingleAt(t, n);
        assert IsNormal(tail) by {
          CollapsedSuffix(t, n + 1);
          assert tail[|tail| - 1] == t[|t| - 1];
          assert tail[0] == t[n + 1];
        }
        assert Words(rest) == Words(tail) by {
          assert rest[1..] == tail;
          WordsSkipSpaces(rest);
          WordsSkipSpaces(tail);
        }
        JoinWordsOfNormal(tail);
        var ws := Words(tail);
        assert |ws| > 0;
        JoinCons(w, ws, " ");
        assert t[n] == ' ';
        SplitAround(t, n);
      }
    }
  }

  lemma {:induction false} SplitAround(t: string, n: nat)
    requires n < |t|
    ensures t == t[..n] + [t[n]] + t[n + 1..]
  {
  }

  lemma {:induction false} JoinCons(w: string, ws: seq<string>, sep: string)
    requires |ws| > 0
    ensures Join([w] + ws, sep) == w + sep + Join(ws, sep)
  {
    assert ([w] + ws)[1..] == ws;
  }

  /** `p` is a prefix of `s`. */
  predicate IsPrefix(p: string, s: string) {
    |p| <= |s| && s[..|p|] == p
  }

  /** `s.includes(t)` (JavaScript) and `t in s` (Python). */
  predicate Contains(s: string, t: string)
    decreases |s|
  {
    IsPrefix(t, s) || (|s| > 0 && Contains(s[1..], t))
  }

  /** `t` occurs in `s` at offset `i`. */
  predicate OccursAt(s: string, t: string, i: int) {
    0 <= i && i + |t| <= |s| && s[i..i + |t|] == t
  }

  /** `Contains` is the substring relation: `t` occurs at some offset of `s`. */
  lemma {:induction false} ContainsIff(s: string, t: string)
    ensures Contains(s, t) <==> exists i :: OccursAt(s, t, i)
    decreases |s|
  {
    if IsPrefix(t, s) {
      assert OccursAt(s, t, 0);
    } else if |s| > 0 {
      ContainsIff(s[1..], t);
      if exists i :: OccursAt(s, t, i) {
        var i :| OccursAt(s, t, i);
        assert i != 0;
        assert s[1..][i - 1..i - 1 + |t|] == t;
        assert OccursAt(s[1..], t, i - 1);
      }
      if Contains(s[1..], t) {
        var i :| OccursAt(s[1..], t, i);
        assert s[i + 1..i + 1 + |t|] == t;
        assert OccursAt(s, t, i + 1);
      }
    }
  }

  /** A string occurring inside a part occurs inside the whole. */
  lemma {:induction false} ContainsInside(a: string, t: string, p: string, q: string)
    requires Contains(a, t)
    ensures Contains(p + a + q, t)
  {
    ContainsIff(a, t);
    var i :| OccursAt(a, t, i);
    var w := p + a + q;
    assert w[|p| + i..|p| + i + |t|] == t;
    assert OccursAt(w, t, |p| + i);
    ContainsIff(w, t);
  }

  /** Every string contains the empty string. */
  lemma ContainsEmpty(s: string)
    ensures Contains(s, "")
  {
    assert IsPrefix("", s);
  }

  /** Every string contains itself. */
  lemma ContainsSelf(s: string)
    ensures Contains(s, s)
  {
    assert IsPrefix(s, s);
  }

  function LowerChar(c: char): char {
    if 'A' <= c <= 'Z' then (c as int - 'A' as int + 'a' as int) as char else c
  }

  /** `toLowerCase`, for the ASCII letters only. */
  function ToLower(s: string): (r: string)
    ensures |r| == |s|
    ensures forall i :: 0 <= i < |s| ==> r[i] == LowerChar(s[i])
  {
    seq(|s|, i requires 0 <= i < |s| => LowerChar(s[i]))
  }

  lemma ToLowerConcat(a: string, b: string)
    ensures ToLower(a + b) == ToLower(a) + ToLower(b)
  {
  }

  lemma ToLowerIdempotent(s: string)
    ensures ToLower(ToLower(s)) == ToLower(s)
  {
  }

  /** Lower-casing touches letters only, so it keeps `norm`'s output shape. */
  lemma {:induction false} ToLowerNormal(t: string)
    requires IsNormal(t)
    ensures IsNormal(ToLower(t))
  {
    var u := ToLower(t);
    forall i | 0 <= i < |u| ensures SpaceSingleAt(u, i) {
      assert SpaceSingleAt(t, i);
      assert IsSpace(u[i]) <==> IsSpace(t[i]);
      assert i + 1 < |u| ==> (IsSpace(u[i + 1]) <==> IsSpace(t[i + 1]));
    }
  }

  /** A white-space-free term found in `x + " " + y` lies inside `x` or
      inside `y`: it cannot straddle the separator. */
  lemma {:induction false} ContainsAcrossSpace(x: string, y: string, t: string)
    requires |t| > 0 && NoSpace(t)
    ensures Contains(x + " " + y, t) <==> Contains(x, t) || Contains(y, t)
  {
    var w := x + " " + y;
    ContainsIff(w, t);
    if Contains(w, t) {
      var i :| OccursAt(w, t, i);
      OccursAcrossSpace(x, y, t, i);
      ContainsIff(x, t);
      ContainsIff(y, t);
    }
    if Contains(x, t) {
      ContainsInside(x, t, "", " " + y);
      assert "" + x + (" " + y) == w;
    }
    if Contains(y, t) {
      ContainsInside(y, t, x + " ", "");
      assert x + " " + y + "" == w;
    }
  }

  lemma {:induction false} OccursAcrossSpace(x: string, y: string, t: string, i: int)
    requires |t| > 0 && NoSpace(t)
    requires OccursAt(x + " " + y, t, i)
    ensures OccursAt(x, t, i) || OccursAt(y, t, i - |x| - 1)
  {
    var w := x + " " + y;
    var n := |t|;
    if i + n <= |x| {
      assert w[i..i + n] == x[i..i + n];
    } else if i > |x| {
      assert w[i..i + n] == y[i - |x| - 1..i - |x| - 1 + n];
    } else {
      OccursAtIndex(w, t, i, |x|);
      assert false;
    }
  }

  lemma OccursAtIndex(s: string, t: string, i: int, j: int)
    ensures OccursAt(s, t, i) && i <= j < i + |t| ==> t[j - i] == s[j]
  {
    if OccursAt(s, t, i) && i <= j < i + |t| {
      assert s[i..i + |t|][j - i] == s[j];
    }
  }

  /** Some piece of `ws`, lower-cased, contains `t`. */
  ghost predicate SomePieceContains(ws: seq<string>, t: string) {
    exists k :: 0 <= k < |ws| && Contains(ToLower(ws[k]), t)
  }

  /** Searching a lower-cased, space-joined list for a white-space-free term
      is searching each lower-cased piece. */
  lemma {:induction false} ContainsInJoin(ws: seq<string>, t: string)
    requires |t| > 0 && NoSpace(t)
    ensures Contains(ToLower(Join(ws, " ")), t) <==> SomePieceContains(ws, t)
    decreases |ws|
  {
    if |ws| == 0 {
      assert !Contains("", t);
    } else if |ws| == 1 {
    } else {
      var rest := Join(ws[1..], " ");
      assert Join(ws, " ") == ws[0] + " " + rest;
      ToLowerConcat(ws[0] + " ", rest);
      ToLowerConcat(ws[0], " ");
      assert ToLower(" ") == " ";
      ContainsAcrossSpace(ToLower(ws[0]), ToLower(rest), t);
      ContainsInJoin(ws[1..], t);
      if SomePieceContains(ws[1..], t) {
        var k :| 0 <= k < |ws[1..]| && Contains(ToLower(ws[1..][k]), t);
        assert ws[k + 1] == ws[1..][k];
      }
      if SomePieceContains(ws, t) {
        var k :| 0 <= k < |ws| && Contains(ToLower(ws[k]), t);
        if k > 0 {
          assert ws[1..][k - 1] == ws[k];
        }
      }
    }
  }

  /** `s.slice(0, n)`. */
  function Take(s: string, n: nat): (r: string)
    ensures |r| <= n
    ensures IsPrefix(r, s)
    ensures |s| <= n ==> r == s
    ensures |s| > n ==> |r| == n
  {
    if |s| <= n then s else s[..n]
  }

  /** Every character of `s` is white space. */
  predicate AllSpace(s: string) {
    forall i :: 0 <= i < |s| ==> IsSpace(s[i])
  }

  lemma {:induction false} DropSpacesAllSpace(s: string)
    requires AllSpace(s)
    ensures DropSpaces(s) == ""
  {
  }

  lemma {:induction false} DropSpacesAppend(a: string, b: string)
    ensures |DropSpaces(a)| > 0 ==> DropSpaces(a + b) == DropSpaces(a) + b
    ensures |DropSpaces(a)| == 0 ==> DropSpaces(a + b) == DropSpaces(b)
    decreases |a|
  {
    if |a| == 0 {
      assert a + b == b;
    } else {
      assert (a + b)[1..] == a[1..] + b;
      if IsSpace(a[0]) {
        DropSpacesAppend(a[1..], b);
      }
    }
  }

  lemma {:induction false} SpanNonSpaceAppend(a: string, b: string)
    requires SpanNonSpace(a) < |a| || |b| == 0 || IsSpace(b[0])
    ensures SpanNonSpace(a + b) == SpanNonSpace(a)
    decreases |a|
  {
    if |a| == 0 {
      assert a + b == b;
    } else {
      assert (a + b)[1..] == a[1..] + b;
      if !IsSpace(a[0]) {
        SpanNonSpaceAppend(a[1..], b);
      }
    }
  }

  lemma {:induction false} SpanNonSpaceAll(w: string)
    requires NoSpace(w)
    ensures SpanNonSpace(w) == |w|
    decreases |w|
  {
    if |w| > 0 {
      SpanNonSpaceAll(w[1..]);
    }
  }

  /** A white-space character in front adds no word. */
  lemma {:induction false} WordsSpaceCons(c: char, y: string)
    requires IsSpace(c)
    ensures Words([c] + y) == Words(y)
  {
    assert ([c] + y)[1..] == y;
    WordsSkipSpaces([c] + y);
    WordsSkipSpaces(y);
  }

  /** A word followed by nothing or by white space is the first word. */
  lemma {:induction false} WordsOfWordThen(w: string, x: string)
    requires IsWord(w)
    requires |x| == 0 || IsSpace(x[0])
    ensures Words(w + x) == [w] + Words(x)
  {
    var s := w + x;
    assert DropSpaces(s) == s;
    SpanNonSpaceAppend(w, x);
    SpanNonSpaceAll(w);
    assert s[..|w|] == w;
    assert s[|w|..] == x;
  }

  /** A string starting with a word: that word, then the words of the rest. */
  lemma {:induction false} WordsUnfold(t: string)
    requires |t| > 0 && !IsSpace(t[0])
    ensures SpanNonSpace(t) > 0
    ensures Words(t) == [t[..SpanNonSpace(t)]] + Words(t[SpanNonSpace(t)..])
  {
    assert DropSpaces(t) == t;
  }

  lemma {:induction false} WordsAppendSpacesStep(t: string, sp: string)
    requires |t| > 0 && !IsSpace(t[0]) && AllSpace(sp)
    requires Words(t[SpanNonSpace(t)..] + sp) == Words(t[SpanNonSpace(t)..])
    ensures Words(t + sp) == Words(t)
  {
    var n := SpanNonSpace(t);
    SpanNonSpaceAppend(t, sp);
    WordsUnfold(t + sp);
    WordsUnfold(t);
    assert (t + sp)[..n] == t[..n];
    assert (t + sp)[n..] == t[n..] + sp;
  }

  lemma {:induction false} WordsAppendSpacesBlank(x: string, sp: string)
    requires AllSpace(sp) && |DropSpaces(x)| == 0
    ensures Words(x + sp) == Words(x)
  {
    DropSpacesAppend(x, sp);
    DropSpacesAllSpace(sp);
    WordsSkipSpaces(x + sp);
    WordsSkipSpaces(x);
  }

  lemma {:induction false} WordsAppendSpacesSkip(x: string, sp: string)
    requires |DropSpaces(x)| > 0
    requires Words(DropSpaces(x) + sp) == Words(DropSpaces(x))
    ensures Words(x + sp) == Words(x)
  {
    DropSpacesAppend(x, sp);
    WordsSkipSpaces(x + sp);
    WordsSkipSpaces(x);
  }

  /** Trailing white space adds no word. */
  lemma {:induction false} WordsAppendSpaces(x: string, sp: string)
    requires AllSpace(sp)
    ensures Words(x + sp) == Words(x)
    decreases |x|
  {
    if |DropSpaces(x)| == 0 {
      WordsAppendSpacesBlank(x, sp);
    } else {
      var t := DropSpaces(x);
      WordsUnfold(t);
      WordsAppendSpaces(t[SpanNonSpace(t)..], sp);
      WordsAppendSpacesStep(t, sp);
      WordsAppendSpacesSkip(x, sp);
    }
  }

  lemma {:induction false} CollapseNoSpacePrefix(w: string, x: string)
    requires NoSpace(w)
    ensures Collapse(w + x) == w + Collapse(x)
    decreases |w|
  {
    if |w| == 0 {
      assert w + x == x;
    } else {
      calc {
        Collapse(w + x);
        == { assert (w + x)[0] == w[0]; assert (w + x)[1..] == w[1..] + x; }
        [w[0]] + Collapse(w[1..] + x);
        == { CollapseNoSpacePrefix(w[1..], x); }
        [w[0]] + (w[1..] + Collapse(x));
        == { assert w == [w[0]] + w[1..]; }
        w + Collapse(x);
      }
    }
  }

  lemma {:induction false} CollapseSpaceCons(s: string)
    requires |s| > 0 && IsSpace(s[0])
    ensures Collapse(s) == [' '] + Collapse(DropSpaces(s[1..]))
  {
  }

  lemma {:induction false} WordsDropFirst(s: string)
    requires |s| > 0 && IsSpace(s[0])
    ensures Words(s) == Words(DropSpaces(s[1..]))
  {
    assert s == [s[0]] + s[1..];
    WordsSpaceCons(s[0], s[1..]);
    WordsSkipSpaces(s[1..]);
  }

  lemma {:induction false} WordsOfCollapseSpace(s: string)
    requires |s| > 0 && IsSpace(s[0])
    requires Words(Collapse(DropSpaces(s[1..]))) == Words(DropSpaces(s[1..]))
    ensures Words(Collapse(s)) == Words(s)
  {
    CollapseSpaceCons(s);
    WordsSpaceCons(' ', Collapse(DropSpaces(s[1..])));
    WordsDropFirst(s);
  }

  lemma {:induction false} CollapseWordCons(s: string)
    requires |s| > 0 && !IsSpace(s[0])
    ensures SpanNonSpace(s) > 0
    ensures Collapse(s) == s[..SpanNonSpace(s)] + Collapse(s[SpanNonSpace(s)..])
  {
    var n := SpanNonSpace(s);
    assert s == s[..n] + s[n..];
    CollapseNoSpacePrefix(s[..n], s[n..]);
  }

  lemma {:induction false} WordsOfCollapseWord(s: string)
    requires |s| > 0 && !IsSpace(s[0])
    requires Words(Collapse(s[SpanNonSpace(s)..])) == Words(s[SpanNonSpace(s)..])
    ensures Words(Collapse(s)) == Words(s)
  {
    CollapseWordCons(s);
    WordsOfWordThen(s[..SpanNonSpace(s)], Collapse(s[SpanNonSpace(s)..]));
    WordsUnfold(s);
  }

  /** Collapsing white-space runs keeps the words. */
  lemma {:induction false} WordsOfCollapse(s: string)
    ensures Words(Collapse(s)) == Words(s)
    decreases |s|
  {
    if |s| == 0 {
    } else if IsSpace(s[0]) {
      WordsOfCollapse(DropSpaces(s[1..]));
      WordsOfCollapseSpace(s);
    } else {
      WordsOfCollapse(s[SpanNonSpace(s)..]);
      WordsOfCollapseWord(s);
    }
  }

  /** Trailing white space removed keeps the words. */
  lemma {:induction false} TrimEndWords(d: string)
    ensures Words(TrimEnd(d)) == Words(d)
  {
    var r := TrimEnd(d);
    var sp := d[|r|..];
    assert d == r + sp;
    forall i | 0 <= i < |sp| ensures IsSpace(sp[i]) {
      assert sp[i] == d[|r| + i];
    }
    WordsAppendSpaces(r, sp);
  }

  /** `norm` keeps exactly the words of its input: splitting the result gives
      them back, and the result is those words joined by single spaces. */
  lemma {:induction false} NormWords(s: string)
    ensures Words(Norm(s)) == Words(s)
    ensures Norm(s) == Join(Words(s), " ")
  {
    var c := Collapse(s);
    assert Norm(s) == TrimEnd(DropSpaces(c));
    WordsOfCollapse(s);
    WordsSkipSpaces(c);
    TrimEndWords(DropSpaces(c));
    JoinWordsOfNormal(Norm(s));
  }
}

=== FILE: thread_comments.dfy ===
/** The review-thread userscript's `collectComments`: every comment body of
    the thread, in page order, becomes "@author: text"; bodies without text
    are skipped, and so is any body whose text an earlier body already had. */
module ThreadComments {
  import opened Text
  import opened Seqs
  import opened ReviewFields
  import opened Lines

  /** One comment body as the page offers it: its text (`innerText ||
      textContent`) and the text of the author element in its comment
      container, "" when there is none. */
  datatype CommentBody = CommentBody(text: string, authorText: string)

  /** A collected comment: normalised author and text. */
  datatype Comment = Comment(author: string, text: string)

  /** What a body contributes if it is kept: `norm(text)`, and the author
      `norm(...) || "unknown"`. */
  function Candidate(b: CommentBody): (c: Comment)
    ensures |c.author| > 0
    ensures NoNewline(c.author) && NoNewline(c.text)
    ensures c.text == Norm(b.text) && c.author == Author(b.authorText)
  {
    NormNoNewline(b.text);
    Comment(Author(b.authorText), Norm(b.text))
  }

  /** The author as the loop records it: the normalised name, "unknown" when
      the page shows none. */
  function Author(authorText: string): (r: string)
    ensures |r| > 0 && NoNewline(r)
    ensures Norm(authorText) != "" ==> r == Norm(authorText)
    ensures Norm(authorText) == "" ==> r == "unknown"
  {
    assert NoNewline("unknown");
    NormOr(authorText, "unknown")
  }

  function Candidates(bodies: seq<CommentBody>): (cs: seq<Comment>)
    ensures |cs| == |bodies|
    ensures forall i :: 0 <= i < |bodies| ==> cs[i] == Candidate(bodies[i])
  {
    Map(Candidate, bodies)
  }

  function Texts(cs: seq<Comment>): (ts: seq<string>)
    ensures |ts| == |cs|
    ensures forall i :: 0 <= i < |cs| ==> ts[i] == cs[i].text
  {
    seq(|cs|, i requires 0 <= i < |cs| => cs[i].text)
  }

  function HasText(c: Comment): bool {
    c.text != ""
  }

  /** The comments the loop keeps from a list of candidates: one per distinct
      non-empty text, the first candidate carrying it. */
  function FirstTexts(cs: seq<Comment>): seq<Comment>
    decreases |cs|
  {
    if |cs| == 0 then []
    else
      var kept := FirstTexts(cs[..|cs| - 1]);
      var c := cs[|cs| - 1];
      if c.text == "" || c.text in Texts(kept) then kept else kept + [c]
  }

  /** The kept texts are the non-empty texts with repeats after the first
      dropped: pairwise distinct, in first-occurrence order. */
  lemma {:induction false} FirstTextsDedup(cs: seq<Comment>)
    ensures Texts(FirstTexts(cs)) == Dedup(Filter(IsNonEmpty, Texts(cs)))
    decreases |cs|
  {
    if |cs| > 0 {
      var pre := cs[..|cs| - 1];
      var c := cs[|cs| - 1];
      FirstTextsDedup(pre);
      assert Texts(cs) == Texts(pre) + [c.text];
      FilterConcat(IsNonEmpty, Texts(pre), [c.text]);
      var f := Filter(IsNonEmpty, Texts(pre));
      if c.text != "" {
        assert Filter(IsNonEmpty, [c.text]) == [c.text];
        assert (f + [c.text])[..|f|] == f;
        var kept := FirstTexts(pre);
        if c.text !in Texts(kept) {
          assert Texts(kept + [c]) == Texts(kept) + [c.text];
        }
      } else {
        assert Filter(IsNonEmpty, [c.text]) == [];
        assert f + [] == f;
      }
    }
  }

  /** `cs[i]` is the first candidate whose text is `t`. */
  predicate FirstWithText(cs: seq<Comment>, i: int, t: string) {
    0 <= i < |cs| && cs[i].text == t && forall j :: 0 <= j < i ==> cs[j].text != t
  }

  /** Every kept comment is the first candidate with its text, author and
      all: a repeat never replaces the author of the first. */
  lemma {:induction false} FirstTextsFirst(cs: seq<Comment>, k: nat)
    requires k < |FirstTexts(cs)|
    ensures FirstTexts(cs)[k].text != ""
    ensures exists i :: FirstWithText(cs, i, FirstTexts(cs)[k].text) && FirstTexts(cs)[k] == cs[i]
    decreases |cs|
  {
    var pre := cs[..|cs| - 1];
    var c := cs[|cs| - 1];
    var kept := FirstTexts(pre);
    if k < |kept| {
      FirstTextsFirst(pre, k);
      var i :| FirstWithText(pre, i, kept[k].text) && kept[k] == pre[i];
      assert FirstWithText(cs, i, kept[k].text);
    } else {
      LastKeptIsFirst(cs);
    }
  }

  /** The last candidate is kept when its text is neither empty nor taken,
      and it is then the first candidate with that text. */
  lemma LastKeptIsFirst(cs: seq<Comment>)
    requires |cs| > 0
    requires |FirstTexts(cs)| > |FirstTexts(cs[..|cs| - 1])|
    ensures FirstWithText(cs, |cs| - 1, cs[|cs| - 1].text)
  {
    var pre := cs[..|cs| - 1];
    var c := cs[|cs| - 1];
    forall j | 0 <= j < |pre| ensures cs[j].text != c.text {
      FirstTextsDedup(pre);
      FilterMember(IsNonEmpty, Texts(pre), c.text);
      assert Texts(pre)[j] == cs[j].text;
    }
  }

  /** The kept comments come in the order their texts first occur. */
  lemma {:induction false} FirstTextsOrdered(cs: seq<Comment>, k: nat, l: nat)
    requires k < l < |FirstTexts(cs)|
    ensures exists i, j :: i < j && FirstWithText(cs, i, FirstTexts(cs)[k].text) && FirstWithText(cs, j, FirstTexts(cs)[l].text)
    decreases |cs|
  {
    var pre := cs[..|cs| - 1];
    var kept := FirstTexts(pre);
    assert FirstTexts(cs)[..|kept|] == kept;
    FirstTextsFirst(pre, k);
    var i :| FirstWithText(pre, i, kept[k].text);
    assert FirstWithText(cs, i, kept[k].text);
    if l < |kept| {
      FirstTextsOrdered(pre, k, l);
      var i', j :| i' < j && FirstWithText(pre, i', kept[k].text) && FirstWithText(pre, j, kept[l].text);
      assert FirstWithText(cs, i', kept[k].text) && FirstWithText(cs, j, kept[l].text);
    } else {
      LastKeptIsFirst(cs);
      assert FirstWithText(cs, |cs| - 1, FirstTexts(cs)[l].text);
    }
  }

  /** Dropping the candidates without text first, as the source does before
      its loop, changes nothing. */
  lemma {:induction false} FirstTextsSkipsEmpty(cs: seq<Comment>)
    ensures FirstTexts(Filter(HasText, cs)) == FirstTexts(cs)
    decreases |cs|
  {
    if |cs| > 0 {
      var pre := cs[..|cs| - 1];
      var c := cs[|cs| - 1];
      assert cs == pre + [c];
      FilterConcat(HasText, pre, [c]);
      FirstTextsSkipsEmpty(pre);
      var f := Filter(HasText, pre);
      if HasText(c) {
        assert Filter(HasText, [c]) == [c];
        assert (f + [c])[..|f|] == f;
      } else {
        assert Filter(HasText, [c]) == [];
        assert f + [] == f;
      }
    }
  }

  /** Building candidates commutes with the source's pre-filter on bodies. */
  lemma CandidatesOfKept(bodies: seq<CommentBody>)
    ensures Candidates(Filter(BodyHasText, bodies)) == Filter(HasText, Candidates(bodies))
  {
    forall b ensures BodyHasText(b) == HasText(Candidate(b)) {
    }
    FilterMap(Candidate, BodyHasText, HasText, bodies);
  }

  /** The pre-filter's test: `norm(el.innerText || el.textContent)` is not
      empty. */
  function BodyHasText(b: CommentBody): bool {
    Norm(b.text) != ""
  }

  /** The line `collectComments` pushes for a comment. */
  function Entry(c: Comment): string {
    "@" + c.author + ": " + c.text
  }

  function Entries(cs: seq<Comment>): (es: seq<string>)
    ensures |es| == |cs|
    ensures forall i :: 0 <= i < |cs| ==> es[i] == Entry(cs[i])
  {
    seq(|cs|, i requires 0 <= i < |cs| => Entry(cs[i]))
  }

  /** The comments of a thread, by the specification above. */
  function Comments(bodies: seq<CommentBody>): seq<Comment> {
    FirstTexts(Candidates(bodies))
  }

  /** One more candidate: it is kept unless its text is empty or taken. */
  lemma FirstTextsSnoc(cs: seq<Comment>, c: Comment)
    ensures FirstTexts(cs + [c]) ==
      if c.text == "" || c.text in Texts(FirstTexts(cs)) then FirstTexts(cs) else FirstTexts(cs) + [c]
  {
    assert (cs + [c])[..|cs|] == cs;
  }

  lemma TakeSnoc(cs: seq<Comment>, i: nat)
    requires i < |cs|
    ensures cs[..i + 1] == cs[..i] + [cs[i]]
  {
  }

  lemma TextsEntriesSnoc(cs: seq<Comment>, c: Comment)
    ensures Texts(cs + [c]) == Texts(cs) + [c.text]
    ensures Entries(cs + [c]) == Entries(cs) + [Entry(c)]
  {
  }

  /** What one pass of the loop in `collectComments` relies on: the next
      candidate is the body's normalised text with its author, and it extends
      the kept comments exactly when its text is new and not empty. */
  lemma CollectStep(kept: seq<CommentBody>, cs: seq<Comment>, i: nat)
    requires cs == Candidates(kept) && i < |kept|
    ensures cs[i].text == Norm(kept[i].text)
    ensures Entry(cs[i]) == "@" + Author(kept[i].authorText) + ": " + Norm(kept[i].text)
    ensures FirstTexts(cs[..i + 1]) ==
      if cs[i].text == "" || cs[i].text in Texts(FirstTexts(cs[..i])) then FirstTexts(cs[..i])
      else FirstTexts(cs[..i]) + [cs[i]]
  {
    TakeSnoc(cs, i);
    FirstTextsSnoc(cs[..i], cs[i]);
  }

  /** `collectComments`: the pre-filter, then one pass with a set of the
      texts seen so far. */
  method CollectComments(bodies: seq<CommentBody>) returns (out: seq<string>)
    ensures out == Entries(Comments(bodies))
    ensures |out| <= |bodies|
  {
    var kept := Filter(BodyHasText, bodies);
    var seen: set<string> := {};
    out := [];
    ghost var cs := Candidates(kept);
    for i := 0 to |kept|
      invariant out == Entries(FirstTexts(cs[..i]))
      invariant forall t :: t in seen <==> t in Texts(FirstTexts(cs[..i]))
    {
      ghost var before := FirstTexts(cs[..i]);
      CollectStep(kept, cs, i);
      var text := Norm(kept[i].text);
      if text == "" || text in seen {
        continue;
      }
      seen := seen + {text};
      var author := Author(kept[i].authorText);
      out := out + ["@" + author + ": " + text];
      TextsEntriesSnoc(before, cs[i]);
    }
    assert cs[..|kept|] == cs;
    CandidatesOfKept(bodies);
    FirstTextsSkipsEmpty(Candidates(bodies));
    CommentsCount(bodies);
  }

  lemma CommentsCount(bodies: seq<CommentBody>)
    ensures |Comments(bodies)| <= |bodies|
  {
    FirstTextsDedup(Candidates(bodies));
  }
}

=== FILE: thread_file.dfy ===
/** Which file a review thread is on (`getFileNameFromThread`): a chain of
    candidates, the first non-empty one winning. Finding the file container
    and its header element in the page is left to the caller; what they hold
    is the input. */
module ThreadFile {
  import opened Wrappers
  import opened Text
  import opened Lines

  /** `cands[i]` is the first non-empty candidate. */
  predicate FirstNonEmptyAt(cands: seq<string>, i: int) {
    0 <= i < |cands| && cands[i] != "" && forall k :: 0 <= k < i ==> cands[k] == ""
  }

  /** Where the first non-empty candidate sits, `|cands|` when there is none. */
  function FirstNonEmptyIndex(cands: seq<string>): (i: nat)
    ensures i <= |cands|
    ensures i < |cands| ==> FirstNonEmptyAt(cands, i)
    ensures i == |cands| ==> forall k :: 0 <= k < |cands| ==> cands[k] == ""
  {
    if |cands| == 0 then 0
    else if cands[0] != "" then 0
    else 1 + FirstNonEmptyIndex(cands[1..])
  }

  /** The first non-empty candidate, `fallback` when every one is empty: the
      `if (x) return x;` chains of the userscript. */
  function FirstNonEmpty(cands: seq<string>, fallback: string): (r: string)
    ensures (exists i :: FirstNonEmptyAt(cands, i) && r == cands[i])
      || ((forall k :: 0 <= k < |cands| ==> cands[k] == "") && r == fallback)
    ensures (exists k :: 0 <= k < |cands| && cands[k] != "") ==> exists i :: FirstNonEmptyAt(cands, i) && r == cands[i]
  {
    var i := FirstNonEmptyIndex(cands);
    if i < |cands| then cands[i] else fallback
  }

  /** Trying one more candidate first: it wins when it is not empty. */
  lemma FirstNonEmptyCons(x: string, rest: seq<string>, fallback: string)
    ensures FirstNonEmpty([x] + rest, fallback) == if x != "" then x else FirstNonEmpty(rest, fallback)
  {
    assert ([x] + rest)[1..] == rest;
  }

  /** The first non-empty of five candidates is the first the chain of
      `if (x) return x;` tests returns. */
  lemma FirstNonEmptyOfFive(a: string, b: string, c: string, d: string, e: string, fallback: string)
    ensures FirstNonEmpty([a, b, c, d, e], fallback)
      == if a != "" then a else if b != "" then b else if c != "" then c
         else if d != "" then d else if e != "" then e else fallback
  {
    FirstNonEmptyCons(e, [], fallback);
    FirstNonEmptyCons(d, [e], fallback);
    FirstNonEmptyCons(c, [d, e], fallback);
    FirstNonEmptyCons(b, [c, d, e], fallback);
    FirstNonEmptyCons(a, [b, c, d, e], fallback);
    assert [a, b, c, d, e] == [a] + [b, c, d, e];
    assert [b, c, d, e] == [b] + [c, d, e];
    assert [c, d, e] == [c] + [d, e];
    assert [d, e] == [d] + [e];
    assert [e] == [e] + [];
  }

  /** The file container a thread sits in, when one is found: its two path
      attributes, and the `title` attribute and text of the first header
      element the selector chain finds. */
  datatype FileRoot = FileRoot(dataPath: string, tagsearchPath: string, headerTitle: string, headerText: string)

  /** The candidates `getFileNameFromThread` tries, in order: with a file
      container, its `data-path`, its `data-tagsearch-path`, the header's
      title and the header's text, all normalised; then the path-like text
      found in the thread (`findPathishText`, taken as given). */
  function FileNameCandidates(root: Option<FileRoot>, pathish: string): seq<string> {
    match root
    case None => [pathish]
    case Some(f) => [Norm(f.dataPath), Norm(f.tagsearchPath), Norm(f.headerTitle), Norm(f.headerText), pathish]
  }

  /** `getFileNameFromThread`, branch for branch. */
  function FileName(root: Option<FileRoot>, pathish: string): (r: string)
    ensures |r| > 0
    ensures NoNewline(pathish) ==> NoNewline(r)
  {
    var byPath := if pathish != "" then pathish else "(unknown file)";
    match root
    case None => byPath
    case Some(f) =>
      var byDataPath := Norm(f.dataPath);
      NormalNoNewline(byDataPath);
      if byDataPath != "" then byDataPath
      else
        var byTagPath := Norm(f.tagsearchPath);
        NormalNoNewline(byTagPath);
        if byTagPath != "" then byTagPath
        else
          var byTitle := Norm(f.headerTitle);
          NormalNoNewline(byTitle);
          if byTitle != "" then byTitle
          else
            var byText := Norm(f.headerText);
            NormalNoNewline(byText);
            if byText != "" then byText else byPath
  }

  /** The file name is the first non-empty candidate in priority order, and
      "(unknown file)" when every candidate is empty. */
  lemma FileNamePriority(root: Option<FileRoot>, pathish: string)
    ensures FileName(root, pathish) == FirstNonEmpty(FileNameCandidates(root, pathish), "(unknown file)")
  {
    match root
    case None =>
      FirstNonEmptyCons(pathish, [], "(unknown file)");
      assert [pathish] == [pathish] + [];
    case Some(f) =>
      FirstNonEmptyOfFive(Norm(f.dataPath), Norm(f.tagsearchPath), Norm(f.headerTitle), Norm(f.headerText), pathish, "(unknown file)");
  }
}

=== FILE: thread_payload.dfy ===
/** The text the review-thread userscript copies (`buildPayload`), from
    fields already extracted, and a reader for that text that recovers the
    fields: the layout loses nothing as long as no field holds a line
    break. */
module ThreadPayload {
  import opened Wrappers
  import opened Text
  import opened Decimal
  import opened Lines

  /** The extracted fields the payload is built from. */
  datatype Fields = Fields(prTitle: string, threadTitle: string, location: string, snippet: string, comments: seq<string>)

  /** `line ? `${fileName}:${line}` : fileName`. */
  function Location(fileName: string, line: string): (r: string)
    ensures IsPrefix(fileName, r)
    ensures r == fileName <==> line == ""
    ensures line != "" ==> r[|fileName|..] == ":" + line
  {
    if line != "" then fileName + ":" + line else fileName
  }

  /** The line that stands in for an empty comment list. */
  const NoComments := "(no comments found)"

  /** `${i + 1}. ${c}` for the comment at index `i`. */
  function Numbered(i: nat, c: string): string {
    NatToString(i + 1) + ". " + c
  }

  /** The comments from index `start` on, numbered from `start + 1`. */
  function NumberedFrom(start: nat, cs: seq<string>): (ls: seq<string>)
    ensures |ls| == |cs|
    ensures forall i :: 0 <= i < |cs| ==> ls[i] == Numbered(start + i, cs[i])
    decreases |cs|
  {
    if |cs| == 0 then [] else [Numbered(start, cs[0])] + NumberedFrom(start + 1, cs[1..])
  }

  /** The lines after "Comments:". */
  function CommentLines(cs: seq<string>): (ls: seq<string>)
    ensures |ls| > 0
  {
    if |cs| == 0 then [NoComments] else NumberedFrom(0, cs)
  }

  /** The payload's lines in order: PR, thread, location, the snippet line
      only when there is a snippet, the "Comments:" heading and the comment
      lines. */
  function PayloadLines(f: Fields): (ls: seq<string>)
    ensures |ls| == 4 + (if f.snippet == "" then 0 else 1) + (if |f.comments| == 0 then 1 else |f.comments|)
  {
    ["PR: " + f.prTitle, "Thread: " + f.threadTitle, "Location: " + f.location]
      + (if f.snippet != "" then ["Snippet: " + f.snippet] else [])
      + ["Comments:"] + CommentLines(f.comments)
  }

  /** `buildPayload`: the lines joined with "\n". */
  function Payload(f: Fields): string {
    Join(PayloadLines(f), "\n")
  }

  /** Reads lines "k. c", "k+1. c'", ... with `k == start + 1`. */
  function ReadNumbered(ls: seq<string>, start: nat): (r: Option<seq<string>>)
    ensures r.Some? ==> |r.value| == |ls|
    decreases |ls|
  {
    if |ls| == 0 then Some([])
    else
      match ReadNat(ls[0])
      case None => None
      case Some((n, rest)) =>
        if n == start + 1 && IsPrefix(". ", rest) then
          match ReadNumbered(ls[1..], start + 1)
          case None => None
          case Some(cs) => Some([rest[2..]] + cs)
        else None
  }

  /** Reads the lines after "Comments:". */
  function ReadComments(ls: seq<string>): Option<seq<string>> {
    if ls == [NoComments] then Some([])
    else if |ls| == 0 then None
    else ReadNumbered(ls, 0)
  }

  /** Reads a payload back into its fields; `None` when the text does not
      have the payload's layout. */
  function ReadPayload(s: string): Option<Fields> {
    ReadPayloadLines(SplitLines(s))
  }

  /** Reads the payload's lines back into its fields. */
  function ReadPayloadLines(ls: seq<string>): Option<Fields> {
    if |ls| < 5 then None
    else
      var pr := After("PR: ", ls[0]);
      var thread := After("Thread: ", ls[1]);
      var location := After("Location: ", ls[2]);
      if pr.None? || thread.None? || location.None? then None
      else if ls[3] == "Comments:" then
        match ReadComments(ls[4..])
        case None => None
        case Some(cs) => Some(Fields(pr.value, thread.value, location.value, "", cs))
      else
        var snippet := After("Snippet: ", ls[3]);
        if snippet.None? || snippet.value == "" || |ls| < 6 || ls[4] != "Comments:" then None
        else
          match ReadComments(ls[5..])
          case None => None
          case Some(cs) => Some(Fields(pr.value, thread.value, location.value, snippet.value, cs))
  }

  /** No field of `f` holds a line break. */
  predicate OneLineFields(f: Fields) {
    && NoNewline(f.prTitle) && NoNewline(f.threadTitle) && NoNewline(f.location)
    && NoNewline(f.snippet) && AllNoNewline(f.comments)
  }

  lemma NoNewlineConcat(a: string, b: string)
    requires NoNewline(a) && NoNewline(b)
    ensures NoNewline(a + b)
  {
    forall k | 0 <= k < |a + b| ensures (a + b)[k] != '\n' {
      if k >= |a| {
        assert (a + b)[k] == b[k - |a|];
      }
    }
  }

  lemma NumberedNoNewline(i: nat, c: string)
    requires NoNewline(c)
    ensures NoNewline(Numbered(i, c))
  {
    NoNewlineConcat(NatToString(i + 1), ". ");
    NoNewlineConcat(NatToString(i + 1) + ". ", c);
  }

  /** The payload's lines are free of line breaks when the fields are. */
  lemma PayloadLinesOneLine(f: Fields)
    requires OneLineFields(f)
    ensures AllNoNewline(PayloadLines(f))
  {
    NoNewlineConcat("PR: ", f.prTitle);
    NoNewlineConcat("Thread: ", f.threadTitle);
    NoNewlineConcat("Location: ", f.location);
    NoNewlineConcat("Snippet: ", f.snippet);
    var cl := CommentLines(f.comments);
    forall i | 0 <= i < |cl| ensures NoNewline(cl[i]) {
      if |f.comments| > 0 {
        NumberedNoNewline(i, f.comments[i]);
      }
    }
  }

  /** Numbered lines read back to the comments they number. */
  lemma {:induction false} ReadNumberedFrom(start: nat, cs: seq<string>)
    ensures ReadNumbered(NumberedFrom(start, cs), start) == Some(cs)
    decreases |cs|
  {
    if |cs| > 0 {
      var ls := NumberedFrom(start, cs);
      ReadNatToString(start + 1, ". " + cs[0]);
      assert ls[0] == NatToString(start + 1) + (". " + cs[0]);
      assert ls[1..] == NumberedFrom(start + 1, cs[1..]);
      ReadNumberedFrom(start + 1, cs[1..]);
      assert (". " + cs[0])[2..] == cs[0];
      assert [cs[0]] + cs[1..] == cs;
    }
  }

  /** The comment lines read back to the comments. */
  lemma ReadCommentLines(cs: seq<string>)
    ensures ReadComments(CommentLines(cs)) == Some(cs)
  {
    if |cs| > 0 {
      var ls := NumberedFrom(0, cs);
      assert ls[0][0] == NatToString(1)[0];
      assert ls != [NoComments] by {
        assert NoComments[0] == '(';
      }
      ReadNumberedFrom(0, cs);
    }
  }

  /** The three heading lines read back to their fields. */
  lemma {:induction false} ReadHeadings(f: Fields)
    ensures var ls := PayloadLines(f);
      && After("PR: ", ls[0]) == Some(f.prTitle)
      && After("Thread: ", ls[1]) == Some(f.threadTitle)
      && After("Location: ", ls[2]) == Some(f.location)
  {
    AfterPrefix("PR: ", f.prTitle);
    AfterPrefix("Thread: ", f.threadTitle);
    AfterPrefix("Location: ", f.location);
  }

  /** Without a snippet, "Comments:" is the fourth line and the comments
      follow it. */
  lemma {:induction false} ReadLinesWithoutSnippet(f: Fields)
    requires f.snippet == ""
    ensures ReadPayloadLines(PayloadLines(f)) == Some(f)
  {
    var ls := PayloadLines(f);
    ReadHeadings(f);
    ReadCommentLines(f.comments);
    assert ls[4..] == CommentLines(f.comments);
  }

  /** With a snippet, the fourth line carries it and the comments follow the
      fifth. */
  lemma {:induction false} ReadLinesWithSnippet(f: Fields)
    requires f.snippet != ""
    ensures ReadPayloadLines(PayloadLines(f)) == Some(f)
  {
    var ls := PayloadLines(f);
    ReadHeadings(f);
    ReadCommentLines(f.comments);
    AfterPrefix("Snippet: ", f.snippet);
    assert ls[3] != "Comments:" by {
      assert ls[3][0] == 'S';
    }
    assert ls[5..] == CommentLines(f.comments);
  }

  /** Reading a payload gives back the fields it was built from. */
  lemma PayloadRoundTrip(f: Fields)
    requires OneLineFields(f)
    ensures ReadPayload(Payload(f)) == Some(f)
  {
    PayloadLinesOneLine(f);
    SplitJoin(PayloadLines(f));
    if f.snippet == "" {
      ReadLinesWithoutSnippet(f);
    } else {
      ReadLinesWithSnippet(f);
    }
  }

  /** The "Snippet: " line is there exactly when the snippet is non-empty,
      and the comment lines are numbered 1..n or the single placeholder. */
  lemma PayloadLayout(f: Fields)
    ensures var ls := PayloadLines(f);
      var k := if f.snippet == "" then 3 else 4;
      && ls[0] == "PR: " + f.prTitle
      && ls[1] == "Thread: " + f.threadTitle
      && ls[2] == "Location: " + f.location
      && (f.snippet != "" ==> ls[3] == "Snippet: " + f.snippet)
      && ls[k] == "Comments:"
      && (|f.comments| == 0 ==> ls[k + 1..] == [NoComments])
      && (forall i :: 0 <= i < |f.comments| ==> ls[k + 1 + i] == NatToString(i + 1) + ". " + f.comments[i])
  {
  }
}

=== FILE: thread_title.dfy ===
/** The title the review-thread userscript gives a conversation
    (`getThreadTitle`). */
module ThreadTitles {
  import opened Text
  import opened DateLike
  import opened ReviewFields
  import opened Lines

  /** The first comment's normalised text cut to 120 characters. */
  function Preview(bodyText: string): (r: string)
    ensures NoNewline(r)
    ensures IsPrefix(r, Norm(bodyText)) && |r| == Min(120, |Norm(bodyText)|)
  {
    var preview := Norm(bodyText);
    NormalNoNewline(preview);
    var r := Take(preview, 120);
    PrefixNoNewline(r, preview);
    r
  }

  /** The title taken from the anchor: its normalised text unless that is
      empty or reads as a date, a placeholder otherwise. */
  function AnchorTitle(anchorText: string): (r: string)
    ensures |r| > 0 && (r == "(untitled thread)" || r == Norm(anchorText))
    ensures Norm(anchorText) != "" && !IsDateLike(Norm(anchorText)) ==> r == Norm(anchorText)
    ensures Norm(anchorText) == "" || IsDateLike(Norm(anchorText)) ==> r == "(untitled thread)"
  {
    var anchor := Norm(anchorText);
    if anchor != "" && !IsDateLike(anchor) then anchor else "(untitled thread)"
  }

  /** `getThreadTitle`: the first comment's text cut to 120 characters; when
      that is empty, the anchor's text unless it is empty or reads as a date;
      otherwise a placeholder. `bodyText` and `anchorText` are the raw texts
      of the first comment body and of the anchor. */
  function ThreadTitle(bodyText: string, anchorText: string): (r: string)
    ensures |r| > 0 && NoNewline(r)
    ensures Norm(bodyText) != "" ==> IsPrefix(r, Norm(bodyText)) && |r| == Min(120, |Norm(bodyText)|)
    ensures Norm(bodyText) == "" && Norm(anchorText) != "" && !IsDateLike(Norm(anchorText)) ==> r == Norm(anchorText)
    ensures Norm(bodyText) == "" && (Norm(anchorText) == "" || IsDateLike(Norm(anchorText))) ==> r == "(untitled thread)"
  {
    if Norm(bodyText) != "" then Preview(bodyText)
    else
      AnchorTitleOneLine(anchorText);
      AnchorTitle(anchorText)
  }

  lemma AnchorTitleOneLine(anchorText: string)
    ensures NoNewline(AnchorTitle(anchorText))
  {
    NormNoNewline(anchorText);
    assert NoNewline("(untitled thread)");
  }

  /** Whatever the anchor says, a thread without comment text is never titled
      by a bare date. */
  lemma ThreadTitleNotAnchorDate(bodyText: string, anchorText: string)
    requires Norm(bodyText) == ""
    requires IsDateLike(anchorText)
    ensures ThreadTitle(bodyText, anchorText) == "(untitled thread)"
  {
    NormIdempotent(anchorText);
  }
}

=== FILE: wrappers.dfy ===
/** Failure-compatible result types used across the model. */
module Wrappers {

  datatype Option<+T> = None | Some(value: T) {
    predicate IsFailure() {
      None?
    }

    function PropagateFailure<U>(): Option<U>
      requires None?
    {
      None
    }

    function Extract(): T
      requires Some?
    {
      value
    }
  }

  /** A computation that either yields a value or fails with a message,
      standing in for a raised exception. */
  datatype Result<+R> = Success(value: R) | Failure(error: string) {
    predicate IsFailure() {
      Failure?
    }

    function PropagateFailure<U>(): Result<U>
      requires Failure?
    {
      Failure(error)
    }

    function Extract(): R
      requires Success?
    {
      value
    }
  }
}
